=== FILE: README.md ===
# ENS Assets Tracker — inventory store and query pipeline in Dafny

This project models the data logic of the ENS asset tracker, a single-page
browser application written in JavaScript (`script.js`). The application keeps
hardware assets and an activity log in the browser's key-value storage. It
shows the assets in a searchable, filterable, sortable, paginated table, and it
signs users in against a locally stored user list. Everything else in the file
is DOM glue around these parts.

Modules (one file each):

| file | module | models |
|---|---|---|
| `arith.dfy` | `Arith` | `min`, and the multiplication, division and concatenation steps the proofs need |
| `optional.dfy` | `Optional` | `Option` / `Result`, for "not found" and the form's error messages |
| `text.dfy` | `Text` | ASCII `toLowerCase`, `includes`, decimal digit strings, JavaScript's string `<`, `trim` |
| `escape.dfy` | `Escaping` | `Utils.escape` and its inverse |
| `records.dfy` | `Records` | an item or log entry as a field → string map; `r[k] \|\| ''`; object spread |
| `store.dfy` | `Store` | `DataService.get` / `set` / `init` over a key → record-array map |
| `inventory.dfy` | `Inventory` | `findIndex` / `find` by tag, `DataService.updateInv` |
| `activity.dfy` | `Activity` | `DataService.log` and its 200-entry cap |
| `sorting.dfy` | `Sorting` | `Array.prototype.sort` with a comparator, as a stable insertion sort |
| `query.dfy` | `Query` | the filter and "smart sort" stages of `UI.renderInventory` |
| `paging.dfy` | `Paging` | `Array.prototype.slice`, the page window, label and button flags |
| `view.dfy` | `View` | `UI.sort` / `UI.pg` state, `sortData`, `changePage`, `resetPagination`, the whole render pipeline |
| `auth.dfy` | `Auth` | the user-list rules of `App.handleAuth` |

Inputs that come from outside are parameters. These are the search box, the
status drop-down, the form fields, the millisecond clock (`now`) and the ISO
date string. The storage is an immutable map that each operation returns
updated.

Points where the code's behaviour is easy to misread:
- A record matches an empty search only if it has at least one field,
  because `Object.values(i).some(...)` is false on an empty object
  (`Query.EmptySearchKeepsNonEmpty`).
- The sort comparator decides "numeric or text" separately for each pair of
  values. It does not fall back to text for the whole column. With mixed
  columns it is not transitive (`Query.MixedColumnCycle`), so no order is
  claimed for them.
- `log` pops at most one entry per call. The cap holds because the log
  never grows past 200 in the first place (`Activity.Push`,
  `Activity.PushAllKeepsNewest`).
- `updateInv` returns nothing. The model returns the updated store.
- A stored value that is not valid JSON is not modelled.

## Model

| member | source | states |
|---|---|---|
| `Escaping.Escape` | script.js:3 | The output contains none of `<`, `>`, `"`, `'`. It is never shorter than the input. It is empty exactly when the input is empty (falsy in, `''` out). Text without the five special characters comes back unchanged. |
| `Escaping.EscapeRoundTrip` | script.js:3 | Reversing the five entity mappings from left to right recovers the original text. |
| `Escaping.EscapeConcat` | script.js:3 | The replacement is per character: escaping a concatenation is the concatenation of the escapes. |
| `Text.Lower` | script.js:254 | The lower-cased string has the same length and no ASCII capital letters. Each capital becomes its own lower-case letter (code + 32). Every character that is not a capital is unchanged. |
| `Text.LowerIdempotent` | script.js:248 | Lower-casing the already lower-cased search text changes nothing. |
| `Text.IncludesIff` | script.js:254 | `includes` holds exactly when the needle occurs at some position of the haystack. |
| `Text.ShowNat` | script.js:150 | `Date.now().toString()` is a non-empty digit string that denotes the clock value, with no leading zero unless the value is 0. |
| `Text.LastFourDigits` | script.js:150 | The last four digits of a number of at least four digits denote the number modulo 10000. |
| `Text.ShowNatLength` | script.js:150 | A number of at least 1000 is written with at least four digits. |
| `Text.LexLessTrichotomy` | script.js:272-273 | For string `<`, two strings are equal or one is less, and never both ways. |
| `Text.LexLessTransitive` | script.js:272-273 | String `<` is transitive. |
| `Text.TrimStart` | script.js:64-65 | The result is a suffix of the input. Everything dropped is white space. It does not start with white space. |
| `Text.TrimEnd` | script.js:64-65 | The result is a prefix of the input. Everything dropped is white space. It does not end with white space. |
| `Text.Trim` | script.js:64-65 | The result is a slice of the input with only white space outside it. It neither starts nor ends with white space. |
| `Text.TrimIdempotent` | script.js:64-65 | Trimming a trimmed string changes nothing. |
| `Text.TrimEmptyIff` | script.js:69 | A field is empty after trimming exactly when it holds only white space. |
| `Records.Field` | script.js:262-263 | `r[k] \|\| ''`: a present field reads as its value, a missing one as the empty string. |
| `Records.Merge` | script.js:143 | Object spread: the merged record has the fields of both. A supplied field's value wins. Every other field keeps its old value. |
| `Store.Get` | script.js:137 | A missing key reads as `[]`. A present key reads as its stored array. |
| `Store.Set` | script.js:138 | After a write, the key reads back the written array. Every other key reads as before. |
| `Store.Init` | script.js:123-135 | An absent inventory is seeded with the two default assets, and the activity log is set to `[]`. An existing inventory, even an empty one, leaves the store unchanged. No other key is touched. |
| `Store.InitIdempotent` | script.js:123-135 | Running start-up twice is the same as running it once. |
| `Inventory.FindIndex` | script.js:142 | The result is -1 exactly when no record has the tag. Otherwise it is the first position whose record has the tag. |
| `Inventory.FindByTag` | script.js:323 | The result is "not found" exactly when no record has the tag. Otherwise it is the first record with the tag. The crash on a missing tag is not reproduced. |
| `Inventory.Upsert` | script.js:140-146 | If the tag exists, the length stays the same. The first record with the tag becomes that record merged with the supplied fields. Every other record is unchanged. If the tag is absent, exactly one record `{tag, ...data}` is appended at the end. |
| `Inventory.UpsertThenFind` | script.js:140-146 | After an upsert whose data does not rewrite `tag`, looking up the tag finds the merged record, or the new record if the tag was absent. |
| `Inventory.UpsertKeepsUnique` | script.js:140-146 | An upsert whose data does not rewrite `tag` keeps all tags distinct. |
| `Inventory.UpsertExactlyOne` | script.js:140-146 | After such an upsert on a list of distinct tags, exactly one record carries the tag. |
| `Inventory.UpsertAllKeepsUnique` | script.js:140-146 | Tags stay distinct through any sequence of such upserts. The edit form and the issuance workflow only make such upserts. |
| `Inventory.UpdateInv` | script.js:140-146 | Only the inventory key changes, and it is written with the upsert of the stored inventory, so `Inventory.Upsert`'s contract describes the stored array. The inventory grows by one exactly when the tag was new. When the supplied fields do not contain `tag`, the tag can be found afterwards and distinct tags stay distinct. |
| `Inventory.MergeScenario` | script.js:143 | Merging `{status: "Assigned", user: "Bob"}` into `{tag: "A-1", type: "Laptop", status: "Available", model: "X", user: "Sys"}` changes exactly those two fields. |
| `Activity.RefOf` | script.js:150 | The ref is `LOG-` followed by one to four digits that denote the clock modulo 10000. From a clock value of 1000 on there are exactly four. Below 10000 the digits are exactly the clock's decimal form. |
| `Activity.Entry` | script.js:150 | The entry has exactly the fields `ref`, `type`, `user`, `date`, `details`. It carries the given type, user, details and date, and its `ref` is `Activity.RefOf` of the clock. |
| `Activity.Push` | script.js:150-151 | The new entry is first. The rest is a prefix of the old log, in order, so only the former last entry can be dropped. The length grows by one unless that would exceed 200. A log of at most 200 entries stays at most 200. |
| `Activity.Log` | script.js:148-153 | Only the activity key changes. The new entry is first, followed by a prefix of the old log. The log grows by one unless it was already at 200, so at most the oldest entry is dropped. The 200-entry cap is kept. |
| `Activity.PushAllKeepsNewest` | script.js:148-153 | Starting from an empty log, any sequence of appends leaves exactly the 200 (or fewer) most recent entries, most recent first. |
| `Activity.OldestEvicted` | script.js:151 | After more than 200 distinct appends to an empty log, its length is 200 and the first entry is gone. |
| `Query.Filter` | script.js:253-257 | The result is a subsequence of the inventory. A record is in it exactly when some field value, lower-cased, contains the lower-cased search text, and the filter is `'All'` or equals the record's status. Every kept record occurs as often as in the inventory, and every dropped one not at all. |
| `Query.EmptySearchKeepsNonEmpty` | script.js:254-255 | An empty search with `'All'` keeps exactly the records that have at least one field. |
| `Query.Cmp` | script.js:261-275 | When both values are digit strings, the sign of the result orders their numbers (reversed when descending), zero exactly for equal numbers. Otherwise it orders the lower-cased strings the same way, zero exactly for equal lower-cased strings. |
| `Query.CmpAntisymmetric` | script.js:261-275 | Swapping the two records flips the sign of the comparison, and keeps zero at zero. |
| `Query.SortRecords` | script.js:260-276 | The sorted list is a permutation of its input. |
| `Query.SortRecordsStable` | script.js:260-276 | On a column of numbers or a column without numbers, the records that compare equal to any given record come out in their stored order. |
| `Query.NumericPreorder` | script.js:262-267 | On a column of digit strings, one record may stay before another exactly when its number is not larger (not smaller when descending), and the comparator is a total preorder there: any two records comparable, "may stay before" transitive. |
| `Query.NumericSortOrder` | script.js:260-276 | On a column of digit strings, ascending order is numerically non-decreasing and descending order is non-increasing. |
| `Query.TextPreorder` | script.js:269-274 | On a column without numbers, one record may stay before another exactly when its lower-cased value does not come after the other's in string order (reversed when descending), and the comparator is a total preorder there. |
| `Query.TextLeTransitive` | script.js:270-273 | "Not after" in lower-cased string order is transitive. |
| `Query.TextSortOrder` | script.js:260-276 | On a column without numbers, the sort yields lower-cased string order, reversed when descending. |
| `Query.MixedColumnCycle` | script.js:262-274 | On a column mixing numbers and text, the comparator can be cyclic: "9" < "10" < "1a" < "9". |
| `Query.NumericSortScenario` | script.js:260-276 | Tags "9", "10", "2" sort ascending as "2", "9", "10". |
| `Sorting.Insert` | script.js:261 | Insertion adds exactly the one element, and its result is one longer. |
| `Sorting.Sort` | script.js:261 | The sort returns a permutation of its input. |
| `Sorting.InsertSorted` | script.js:261 | Inserting into a sorted list keeps it sorted when the comparator is a total preorder on the elements. |
| `Sorting.SortSorted` | script.js:261 | The sort orders its input when the comparator is a total preorder on the elements. |
| `Sorting.SortKeepsSorted` | script.js:261 | A list already in order comes back unchanged. |
| `Sorting.SortStable` | script.js:261 | When the comparator is a total preorder on the elements, the elements that compare equal to any given one keep their relative order. |
| `Paging.SliceIndex` | script.js:281 | A `slice` index at or above zero is clamped to the length. A negative index counts from the end and stops at zero. |
| `Paging.JsSlice` | script.js:281 | `slice` returns a contiguous run of the array. For 0 ≤ begin ≤ end it is `s[min(begin,len)..min(end,len)]`. |
| `Paging.Paginate` | script.js:279-285 | The total is the length of the filtered data. Every row shown comes from that data. |
| `Paging.Window` | script.js:280-281 | The page window is never longer than the page size. |
| `Paging.PageWindow` | script.js:279-281 | For pg ≥ 1 and limit > 0, the page is `data[min(start,total) .. min(start+limit,total)]` with `start = (pg-1)*limit`. |
| `Paging.PastLastPage` | script.js:279-285 | A page past the last gives no rows. The total is still the data's length, and "next" is disabled. |
| `Paging.PageFlags` | script.js:284-285 | On a valid page, "previous" is disabled exactly when there is no page before it. "Next" is disabled exactly when the following page would show no rows. |
| `Paging.PageLabel` | script.js:283 | On a page with rows, the label shows the 1-based positions `start+1` to `start + rows`. Past the end it shows `total - total`. |
| `Paging.PaginationScenario` | script.js:279-285 | With 25 rows, ten per page, page 3 has five rows, label 21 to 25, "next" disabled and "previous" enabled. |
| `View.SortData` | script.js:241-245 | Selecting the current sort column flips the direction. Selecting another column makes it the sort column, ascending. The page is unchanged. |
| `View.SortDataTwice` | script.js:241-245 | Selecting the current sort column twice restores the state. |
| `View.SortActive` | script.js:260 | `if (UI.sort.col)`: sorting happens exactly when the column is neither `null` nor the empty string. |
| `View.ChangePage` | script.js:312 | The page number moves by exactly `dir`. Nothing else changes. |
| `View.ChangePageUndo` | script.js:312 | Moving by `dir` and then by `-dir` restores the state. |
| `View.ResetPagination` | script.js:313 | The page number becomes 1. Page size and sort are kept. |
| `View.ApplySort` | script.js:260-276 | The sorted rows are a permutation of the filtered rows. With no sort column (`null` or `''`), the order is untouched. |
| `View.RenderInventory` | script.js:247-285 | The total is the filtered count. Every row shown is in the inventory and passes the search and status filter. For a valid page there are at most `limit` rows. |
| `View.TotalIndependentOfPage` | script.js:279 | The total is the same whatever the page number, page size or sort. |
| `View.UnsortedKeepsOrder` | script.js:260-281 | With no sort column, the page is the window of the filtered rows in stored order. |
| `View.InitialShowsFirstRows` | script.js:167-169 | In the initial state (page 1, ten rows, no sort column) the table shows the first ten matching rows in stored order. |
| `View.RenderShowsWindow` | script.js:247-285 | On a valid page the rows shown are the page window of the filtered and sorted rows. "Previous" is disabled exactly on page 1, and "next" exactly when the following page would show no rows. |
| `View.RenderShowsLabel` | script.js:283 | On a valid page the "Showing a - b of total" label counts the filtered rows: a non-empty page shows rows start+1 to start+n, 1-based, and a page past the end reads total - total with no rows. |
| `Auth.FindByUsername` | script.js:81 | The result is "not found" exactly when no user has that username. Otherwise it is a stored user with it. |
| `Auth.FindLogin` | script.js:89 | The result is "not found" exactly when no user has that username and password. Otherwise it is the first such user. |
| `Auth.NewUser` | script.js:83 | The new user's id is the clock value, the role is as chosen and the office is "HQ". Username, password and name are slices of the typed fields with white space only around them, and none starts or ends with white space. |
| `Auth.NewUserIgnoresPadding` | script.js:77-83 | White space typed around the email, password or name makes no difference to the account created. |
| `Auth.Signup` | script.js:78-87 | "Name required" exactly when the trimmed name is empty. Otherwise "User exists" exactly when the trimmed email is already a username. Otherwise exactly one user is appended at the end (trimmed email, password and name, the chosen role, office "HQ") and signed in. |
| `Auth.Login` | script.js:89-96 | "Invalid credentials" exactly when no stored user has this username and password. Otherwise the list is unchanged and a stored user with those credentials is signed in. |
| `Auth.HandleAuth` | script.js:62-99 | "All fields required" exactly when the trimmed email or password is empty. In sign-up mode: "Name required" exactly when the trimmed name is empty; otherwise "User exists" exactly when the username is taken; otherwise sign-up succeeds, and exactly one new user is appended and signed in. In sign-in mode: "Invalid credentials" exactly when no stored user matches; otherwise the user list is unchanged and a matching user is signed in. |
| `Auth.SignupKeepsUsernamesUnique` | script.js:81-85 | Sign-up keeps usernames distinct. |
| `Auth.SignupThenLogin` | script.js:81-92 | Signing in with the credentials just used to sign up returns the new account and the same user list. |
| `Auth.SeedAdminLogin` | script.js:124-127 | The seeded administrator signs in as "admin" / "password", even with spaces around the username. |

## Left out

- DOM rendering (table rows, badges, the dashboard counters and chart, modals, sidebar, theme, permissions display, profile form, the issuance steps): it only displays data the model computes. script.js:171-236, 287-309, 316-343, 362-419 and 434-461.
- JSON and `localStorage`: the store is a map of decoded arrays. What `JSON.parse` does with a corrupt value is library behaviour. A key that holds the empty string, which the source also reads as `[]`, cannot be represented.
- The user list and current user are not kept in the generic store. `Auth.HandleAuth` receives the stored users and returns the new list and the signed-in user. `DataService.init`'s user seed is `Auth.SeedUsers`.
- Inventory.FindByTag: returns "not found" for a missing tag, where the edit form (script.js:323-324) would throw on `item.tag`. The crash is reachable: the edit button passes the tag inside an inline `onclick` string (script.js:304), which the browser HTML-decodes and then reads as a JavaScript string literal, so a tag containing `\` or an HTML entity such as `&amp;` reaches `find` altered and finds nothing. The model does not reproduce the crash.
- `App.init`'s restore of the signed-in user (script.js:26-27), `App.logout` (script.js:102-107) and `App.showDashboard` (script.js:109-118): they read or remove `ensCurrentUser` and switch views. The signed-in user is an output of `Auth.HandleAuth`, and session persistence across reloads is not modelled.
- `App.toggleAuthMode`: the sign-up/sign-in mode is a parameter of `Auth.HandleAuth`.
- Timers: `Utils.debounce`, the 300 ms search debounce and the 600 ms sign-in delay (script.js:6-12, 74, 239, 336, 342) only schedule work.
- `Date.now()` and `toISOString()`: the clock value and the date string are parameters. The four-digit ref is not unique, and nothing claims it is.
- `Utils.formatDate`: locale-dependent.
- Foreign libraries: Chart.js, `Papa.unparse` CSV export, QRCode, html2pdf, FileReader and canvas signature capture (script.js:155-162, 226-235, 362-368, 421-461, 470).
- `UI.saveAsset` and `Workflow.completeIssuance` only call `updateInv` and then `log`. They are modelled through those two operations, not as operations of their own.
- Query.Cmp: "numeric" means a non-empty string of ASCII digits read as a natural number. JavaScript's `isNaN` also accepts signs, decimal points, exponents, hex, surrounding white space and `Infinity`, and subtracts in floating point. Such values are treated as text here.
- Text.Lower: lower-cases only the ASCII letters, not all of Unicode.
- Text.LexLess: compares characters by code point. JavaScript compares UTF-16 code units, which differs only for characters outside the Basic Multilingual Plane.
- Sorting.Sort: the engine's own sort algorithm is replaced by an insertion sort. Order and stability are claimed only where the comparator is a total preorder (all numbers, or no numbers), never for mixed columns, where the comparator is inconsistent and the engine's result depends on its algorithm.
- Records.Record: field values are strings. Numbers, booleans and nested objects in stored JSON are not represented, and neither are the falsy non-strings `Utils.escape` maps to `''`.
- Inventory.UpsertKeepsUnique: requires that the supplied fields do not contain `tag`, because `{...inv[idx], ...data}` would otherwise let `data.tag` rename a record onto an existing tag. Neither caller passes `tag` in `data`.

=== FILE: activity.dfy ===
/** The activity log under `ensActivity`: `DataService.log` puts the newest
    entry first and, once the log is longer than 200 entries, drops the last. */
module Activity {
  import opened Records
  import opened Store
  import Text
  import opened Arith

  /** The retention cap of the log. */
  const Cap := 200

  /** `LOG-` followed by the last four digits of the millisecond clock (all of
      them when it has fewer). Two entries may well share a ref. */
  function RefOf(now: nat): (r: string)
    ensures 5 <= |r| <= 8 && r[..4] == "LOG-"
    ensures forall i :: 4 <= i < |r| ==> Text.IsDigit(r[i])
    ensures Text.ParseNat(r[4..]) == now % 10000
    ensures now >= 1000 ==> |r| == 8
    ensures now < 10000 ==> r == "LOG-" + Text.ShowNat(now)
  {
    var digits := Text.ShowNat(now);
    Text.ShowNatLength(now);
    var last := if |digits| <= 4 then digits else digits[|digits| - 4..];
    RefDigits(now);
    if now < 10000 then
      assert Text.Pow10(4) == 10000 by {
        assert Text.Pow10(1) == 10 && Text.Pow10(2) == 100 && Text.Pow10(3) == 1000;
      }
      Text.ShowNatShort(now, 4);
      "LOG-" + last
    else "LOG-" + last
  }

  /** The digits after `LOG-` denote the clock modulo 10000. */
  lemma RefDigits(now: nat)
    ensures var digits := Text.ShowNat(now);
            var last := if |digits| <= 4 then digits else digits[|digits| - 4..];
            Text.ParseNat(last) == now % 10000
  {
    var digits := Text.ShowNat(now);
    if |digits| >= 4 {
      Text.LastFourDigits(now);
      assert |digits| == 4 ==> digits[|digits| - 4..] == digits;
    } else {
      Text.ShowNatLength(now);
      DivModUnique(now, 0, now, 10000);
    }
  }

  /** The object `log` builds; the clock reading and the ISO date are inputs. */
  function Entry(kind: string, details: string, user: string, now: nat, date: string): (e: Record)
    ensures e.Keys == {"ref", "type", "user", "date", "details"}
    ensures e["ref"] == RefOf(now)
    ensures e["type"] == kind && e["user"] == user && e["details"] == details && e["date"] == date
  {
    map["ref" := RefOf(now), "type" := kind, "user" := user, "date" := date, "details" := details]
  }

  /** `unshift` then at most one `pop`. The new entry comes first, the old
      entries follow in order, and at most the former last one is dropped. */
  function Push<T>(log: seq<T>, e: T): (r: seq<T>)
    ensures |r| > 0 && r[0] == e
    ensures r[1..] <= log
    ensures |r| == if |log| + 1 > Cap then |log| else |log| + 1
    ensures |log| <= Cap ==> |r| <= Cap
  {
    var grown := [e] + log;
    if |grown| > Cap then grown[..|grown| - 1] else grown
  }

  /** `DataService.log` on the store. */
  function Log(s: Store, kind: string, details: string, user: string, now: nat, date: string): (r: Store)
    ensures forall k :: k != ActivityKey ==> Get(r, k) == Get(s, k)
    ensures |Get(r, ActivityKey)| > 0 && Get(r, ActivityKey)[0] == Entry(kind, details, user, now, date)
    ensures Get(r, ActivityKey)[1..] <= Get(s, ActivityKey)
    ensures |Get(r, ActivityKey)| == if |Get(s, ActivityKey)| + 1 > Cap then |Get(s, ActivityKey)| else |Get(s, ActivityKey)| + 1
    ensures |Get(s, ActivityKey)| <= Cap ==> |Get(r, ActivityKey)| <= Cap
  {
    Set(s, ActivityKey, Push(Get(s, ActivityKey), Entry(kind, details, user, now, date)))
  }

  /* ---------- many appends ---------- */

  function Reverse<T>(s: seq<T>): (r: seq<T>)
    ensures |r| == |s|
    ensures forall i :: 0 <= i < |s| ==> r[i] == s[|s| - 1 - i]
  {
    if s == [] then [] else [s[|s| - 1]] + Reverse(s[..|s| - 1])
  }

  /** The log after appending `entries` one by one, oldest first. */
  function PushAll<T>(log: seq<T>, entries: seq<T>): seq<T>
  {
    if entries == [] then log
    else Push(PushAll(log, entries[..|entries| - 1]), entries[|entries| - 1])
  }

  /** Starting from an empty log, the log holds exactly the `Cap` most recently
      appended entries, most recent first. */
  lemma {:induction false} PushAllKeepsNewest<T>(entries: seq<T>)
    ensures PushAll([], entries) == Reverse(entries)[..Min(|entries|, Cap)]
  {
    if entries != [] {
      var n := |entries|;
      var prefix := entries[..n - 1];
      var e := entries[n - 1];
      PushAllKeepsNewest(prefix);
      var before := Reverse(prefix)[..Min(n - 1, Cap)];
      assert Reverse(entries) == [e] + Reverse(prefix);
      if n - 1 < Cap {
        assert before == Reverse(prefix);
      } else {
        assert ([e] + before)[..Cap] == [e] + Reverse(prefix)[..Cap - 1];
      }
    }
  }

  /** Appending more than `Cap` distinct entries to an empty log leaves `Cap`
      of them, and the very first one is gone. */
  lemma OldestEvicted<T>(entries: seq<T>)
    requires |entries| > Cap
    requires forall i, j :: 0 <= i < j < |entries| ==> entries[i] != entries[j]
    ensures |PushAll([], entries)| == Cap
    ensures entries[0] !in PushAll([], entries)
  {
    PushAllKeepsNewest(entries);
    var r := PushAll([], entries);
    forall k | 0 <= k < |r|
      ensures r[k] != entries[0]
    {
      assert r[k] == entries[|entries| - 1 - k];
    }
  }
}

=== FILE: arith.dfy ===
/** Small facts the solver does not find unaided: `min`, the distributive and
    division steps behind reading decimal digits, and regrouping a
    concatenation. */
module Arith {

  function Min(a: int, b: int): (m: int)
    ensures m <= a && m <= b
    ensures m == a || m == b
  {
    if a <= b then a else b
  }

  lemma DivModUnique(n: nat, q: nat, r: nat, m: nat)
    requires 0 <= r < m && n == q * m + r
    ensures n % m == r
  {
    var q', r' := n / m, n % m;
    assert q' * m + r' == q * m + r;
    if q' > q {
      MulStep(q, q', m);
      assert false;
    } else if q' < q {
      MulStep(q', q, m);
      assert false;
    }
  }

  lemma MulStep(a: nat, b: nat, m: nat)
    requires a < b
    ensures a * m + m <= b * m
  {
    var d: nat := b - a - 1;
    Distribute(a + d, 1, m);
    Distribute(a, d, m);
  }

  lemma Distribute(x: int, y: int, m: int)
    ensures (x + y) * m == x * m + y * m
  {
  }

  lemma ShiftByTen(a: int, p: int)
    ensures 10 * (a * p) == a * (10 * p)
  {
  }

  lemma ConcatAssoc<T>(x: seq<T>, y: seq<T>, z: seq<T>)
    ensures x + (y + z) == (x + y) + z
  {
  }
}

=== FILE: auth.dfy ===
/** The user-list rules of `App.handleAuth`: trimming and required fields,
    sign-up appending one user with a fresh username, and sign-in as a lookup
    on the username/password pair. The 600 ms delay and the DOM are not modelled. */
module Auth {
  import opened Optional
  import opened Text

  datatype User = User(id: int, username: string, password: string, name: string, role: string, office: string)

  /** The messages the form shows. */
  datatype AuthError = AllFieldsRequired | NameRequired | UserExists | InvalidCredentials

  /** The four form fields as typed (email, password, and on sign-up name and role). */
  datatype AuthForm = AuthForm(email: string, password: string, name: string, role: string)

  /** The user list afterwards and the user now signed in (`ensCurrentUser`). */
  datatype Session = Session(users: seq<User>, current: User)

  /** The account `DataService.init` creates when there are no users. */
  const SeedUsers: seq<User> := [User(1, "admin", "password", "Admin User", "IT Manager", "Sandton")]

  predicate UniqueUsernames(users: seq<User>) {
    forall i, j :: 0 <= i < j < |users| ==> users[i].username != users[j].username
  }

  /** `users.find(u => u.username === email)` of sign-up. */
  function FindByUsername(users: seq<User>, username: string): (r: Option<User>)
    ensures r.None? <==> forall i :: 0 <= i < |users| ==> users[i].username != username
    ensures r.Some? ==> r.value in users && r.value.username == username
  {
    if users == [] then None
    else if users[0].username == username then Some(users[0])
    else FindByUsername(users[1..], username)
  }

  /** Position `i` is the first user with these credentials. */
  predicate FirstMatch(users: seq<User>, username: string, password: string, i: int) {
    && 0 <= i < |users|
    && users[i].username == username && users[i].password == password
    && forall j :: 0 <= j < i ==> !(users[j].username == username && users[j].password == password)
  }

  /** `users.find(u => u.username === email && u.password === pass)` of sign-in. */
  function FindLogin(users: seq<User>, username: string, password: string): (r: Option<User>)
    ensures r.None? <==> forall i :: 0 <= i < |users| ==>
                           !(users[i].username == username && users[i].password == password)
    ensures r.Some? ==> exists i :: FirstMatch(users, username, password, i) && users[i] == r.value
  {
    if users == [] then None
    else if users[0].username == username && users[0].password == password then
      assert FirstMatch(users, username, password, 0);
      Some(users[0])
    else
      var r := FindLogin(users[1..], username, password);
      if r.Some? then
        var i :| FirstMatch(users[1..], username, password, i) && users[1..][i] == r.value;
        assert FirstMatch(users, username, password, i + 1);
        r
      else r
  }

  /** The user sign-up creates; `now` stands for `Date.now()`. The username,
      password and name are the trimmed fields, the role is taken as chosen
      and the office is always "HQ". */
  function NewUser(form: AuthForm, now: int): (u: User)
    ensures u.id == now && u.role == form.role && u.office == "HQ"
    ensures Trimmed(u.username) && Trimmed(u.password) && Trimmed(u.name)
    ensures exists i :: SliceWithin(form.email, u.username, i)
    ensures exists i :: SliceWithin(form.password, u.password, i)
    ensures exists i :: SliceWithin(form.name, u.name, i)
  {
    User(now, Trim(form.email), Trim(form.password), Trim(form.name), form.role, "HQ")
  }

  /** White space typed around the fields makes no difference to the account
      created. */
  lemma NewUserIgnoresPadding(form: AuthForm, now: int)
    ensures NewUser(form, now)
            == NewUser(AuthForm(Trim(form.email), Trim(form.password), Trim(form.name), form.role), now)
  {
    TrimIdempotent(form.email);
    TrimIdempotent(form.password);
    TrimIdempotent(form.name);
  }

  predicate UsernameTaken(users: seq<User>, username: string) {
    exists i :: 0 <= i < |users| && users[i].username == username
  }

  predicate CredentialsMatch(users: seq<User>, username: string, password: string) {
    exists i :: 0 <= i < |users| && users[i].username == username && users[i].password == password
  }

  /** The sign-up branch, reached once email and password are non-empty. */
  function Signup(users: seq<User>, form: AuthForm, now: int): (r: Result<Session, AuthError>)
    ensures r == Err(NameRequired) <==> Trim(form.name) == ""
    ensures r == Err(UserExists) <==> Trim(form.name) != "" && UsernameTaken(users, Trim(form.email))
    ensures r.Ok? <==> Trim(form.name) != "" && !UsernameTaken(users, Trim(form.email))
    ensures r.Ok? ==> && r.value.current == NewUser(form, now)
                      && r.value.users == users + [r.value.current]
  {
    if Trim(form.name) == "" then Err(NameRequired)
    else if FindByUsername(users, Trim(form.email)).Some? then Err(UserExists)
    else
      var u := NewUser(form, now);
      Ok(Session(users + [u], u))
  }

  /** The sign-in branch, reached once email and password are non-empty. */
  function Login(users: seq<User>, email: string, pass: string): (r: Result<Session, AuthError>)
    ensures r.Err? <==> !CredentialsMatch(users, email, pass)
    ensures r.Err? ==> r.error == InvalidCredentials
    ensures r.Ok? ==> && r.value.users == users
                      && r.value.current in users
                      && r.value.current.username == email
                      && r.value.current.password == pass
  {
    match FindLogin(users, email, pass)
    case Some(u) => Ok(Session(users, u))
    case None => Err(InvalidCredentials)
  }

  /** `App.handleAuth` on the stored user list, `isSignup` being the form's mode. */
  function HandleAuth(users: seq<User>, isSignup: bool, form: AuthForm, now: int): (r: Result<Session, AuthError>)
    ensures r == Err(AllFieldsRequired) <==> Trim(form.email) == "" || Trim(form.password) == ""
    ensures isSignup && r.Ok? ==>
              && r.value.current == NewUser(form, now)
              && r.value.users == users + [r.value.current]
              && !UsernameTaken(users, r.value.current.username)
    ensures isSignup && Trim(form.email) != "" && Trim(form.password) != "" ==>
              && (r == Err(NameRequired) <==> Trim(form.name) == "")
              && (r == Err(UserExists) <==> Trim(form.name) != "" && UsernameTaken(users, Trim(form.email)))
              && (r.Ok? <==> Trim(form.name) != "" && !UsernameTaken(users, Trim(form.email)))
    ensures !isSignup && r.Ok? ==>
              && r.value.users == users
              && r.value.current in users
              && r.value.current.username == Trim(form.email)
              && r.value.current.password == Trim(form.password)
    ensures !isSignup && Trim(form.email) != "" && Trim(form.password) != "" ==>
              (r == Err(InvalidCredentials) <==> !CredentialsMatch(users, Trim(form.email), Trim(form.password)))
    ensures !isSignup && r.Err? ==> r.error == AllFieldsRequired || r.error == InvalidCredentials
  {
    var email := Trim(form.email);
    var pass := Trim(form.password);
    if email == "" || pass == "" then Err(AllFieldsRequired)
    else if isSignup then Signup(users, form, now)
    else Login(users, email, pass)
  }

  /** Sign-up never gives two accounts the same username. */
  lemma SignupKeepsUsernamesUnique(users: seq<User>, form: AuthForm, now: int)
    requires UniqueUsernames(users)
    ensures var r := HandleAuth(users, true, form, now);
            r.Ok? ==> UniqueUsernames(r.value.users)
  {
    var r := HandleAuth(users, true, form, now);
    if r.Ok? {
      AppendFreshKeepsUnique(users, r.value.current);
    }
  }

  lemma AppendFreshKeepsUnique(users: seq<User>, u: User)
    requires UniqueUsernames(users) && !UsernameTaken(users, u.username)
    ensures UniqueUsernames(users + [u])
  {
    var all := users + [u];
    forall i, j | 0 <= i < j < |all|
      ensures all[i].username != all[j].username
    {
      if j == |users| {
        assert all[i] == users[i];
      } else {
        assert all[i] == users[i] && all[j] == users[j];
      }
    }
  }

  /** Signing in with the credentials just used to sign up finds the new account. */
  lemma SignupThenLogin(users: seq<User>, form: AuthForm, now: int, later: AuthForm, now': int)
    requires later.email == form.email && later.password == form.password
    ensures var r := HandleAuth(users, true, form, now);
            r.Ok? ==> HandleAuth(r.value.users, false, later, now') == r
  {
    var r0 := HandleAuth(users, true, form, now);
    if r0.Err? {
      return;
    }
    var s := r0.value;
    var email, pass := Trim(form.email), Trim(form.password);
    var r := FindLogin(s.users, email, pass);
    assert s.users[|users|] == s.current;
    assert r.Some?;
    var i :| FirstMatch(s.users, email, pass, i) && s.users[i] == r.value;
    assert i == |users|;
  }

  /** The seeded administrator can sign in with the documented password, even
      with stray spaces around the username. */
  lemma SeedAdminLogin()
    ensures HandleAuth(SeedUsers, false, AuthForm(" admin ", "password", "", ""), 0)
              == Ok(Session(SeedUsers, SeedUsers[0]))
  {
    TrimPadded();
    TrimPassword();
    assert FindLogin(SeedUsers, "admin", "password") == Some(SeedUsers[0]);
  }

  lemma TrimPadded()
    ensures Trim(" admin ") == "admin"
  {
    TrimStartPadded();
    TrimEndPadded();
  }

  lemma TrimStartPadded()
    ensures TrimStart(" admin ") == "admin "
  {
    assert IsSpace(' ') && !IsSpace('a');
    assert " admin "[1..] == "admin ";
    assert TrimStart("admin ") == "admin ";
  }

  lemma TrimEndPadded()
    ensures TrimEnd("admin ") == "admin"
  {
    assert IsSpace(' ') && !IsSpace('n');
    assert "admin "[..5] == "admin";
    assert TrimEnd("admin") == "admin";
  }

  lemma TrimPassword()
    ensures Trim("password") == "password"
  {
    assert !IsSpace('p') && !IsSpace('d');
    assert TrimStart("password") == "password";
  }
}

=== FILE: escape.dfy ===
/** `Utils.escape`: replaces each of the five HTML-special characters by its
    entity before a value is placed into markup. */
module Escaping {
  import opened Arith

  /** The characters the escape regular expression `[&<>"']` matches. */
  predicate IsSpecial(c: char) {
    c == '&' || c == '<' || c == '>' || c == '"' || c == '\''
  }

  predicate NoSpecials(s: string) {
    forall i :: 0 <= i < |s| ==> !IsSpecial(s[i])
  }

  /** The replacement table of `Utils.escape`. */
  function Entity(c: char): string {
    match c
    case '&' => "&amp;"
    case '<' => "&lt;"
    case '>' => "&gt;"
    case '"' => "&quot;"
    case '\'' => "&#039;"
    case _ => [c]
  }

  /** The only special character an escaped string may still contain is the
      ampersand opening an entity. */
  predicate SafeForMarkup(s: string) {
    forall i :: 0 <= i < |s| ==> s[i] != '<' && s[i] != '>' && s[i] != '"' && s[i] != '\''
  }

  /** `Utils.escape` on a string. A falsy argument (`''`, `undefined`, `null`)
      gives `''`; for a string only `''` is falsy, and it escapes to `''`. */
  function Escape(s: string): (r: string)
    ensures SafeForMarkup(r)
    ensures |r| >= |s|
    ensures r == [] <==> s == []
    ensures NoSpecials(s) ==> r == s
  {
    if s == [] then []
    else
      EntitySafe(s[0]);
      Entity(s[0]) + Escape(s[1..])
  }

  lemma EntitySafe(c: char)
    ensures SafeForMarkup(Entity(c)) && |Entity(c)| >= 1
    ensures !IsSpecial(c) ==> Entity(c) == [c]
  {
  }

  /** Reverses the five entity mappings, reading left to right. */
  function Unescape(s: string): string
    decreases |s|
  {
    if s == [] then []
    else if "&amp;" <= s then "&" + Unescape(s[5..])
    else if "&lt;" <= s then "<" + Unescape(s[4..])
    else if "&gt;" <= s then ">" + Unescape(s[4..])
    else if "&quot;" <= s then "\"" + Unescape(s[6..])
    else if "&#039;" <= s then "'" + Unescape(s[6..])
    else [s[0]] + Unescape(s[1..])
  }

  lemma UnescapeEntity(c: char, t: string)
    ensures Unescape(Entity(c) + t) == [c] + Unescape(t)
  {
    if c == '&' {
      UnescapeAmp(t);
    } else if c == '<' {
      UnescapeLt(t);
    } else if c == '>' {
      UnescapeGt(t);
    } else if c == '"' {
      UnescapeQuot(t);
    } else if c == '\'' {
      UnescapeApos(t);
    } else {
      var s := Entity(c) + t;
      assert s[0] == c && s[0] != '&';
      assert s[1..] == t;
    }
  }

  lemma UnescapeAmp(t: string)
    ensures Unescape("&amp;" + t) == "&" + Unescape(t)
  {
    var s := "&amp;" + t;
    assert "&amp;" <= s && s[5..] == t;
  }

  lemma UnescapeLt(t: string)
    ensures Unescape("&lt;" + t) == "<" + Unescape(t)
  {
    var s := "&lt;" + t;
    assert s[1] == 'l';
    assert "&lt;" <= s && s[4..] == t;
  }

  lemma UnescapeGt(t: string)
    ensures Unescape("&gt;" + t) == ">" + Unescape(t)
  {
    var s := "&gt;" + t;
    assert s[1] == 'g';
    assert "&gt;" <= s && s[4..] == t;
  }

  lemma UnescapeQuot(t: string)
    ensures Unescape("&quot;" + t) == "\"" + Unescape(t)
  {
    var s := "&quot;" + t;
    assert s[1] == 'q';
    assert "&quot;" <= s && s[6..] == t;
  }

  lemma UnescapeApos(t: string)
    ensures Unescape("&#039;" + t) == "'" + Unescape(t)
  {
    var s := "&#039;" + t;
    assert s[1] == '#';
    assert "&#039;" <= s && s[6..] == t;
  }

  /** Escaping loses nothing: the original text is recovered from the markup. */
  lemma {:induction false} EscapeRoundTrip(s: string)
    ensures Unescape(Escape(s)) == s
  {
    if s != [] {
      UnescapeEntity(s[0], Escape(s[1..]));
      EscapeRoundTrip(s[1..]);
      assert s == [s[0]] + s[1..];
    }
  }

  /** Escaping distributes over concatenation, so a value may be escaped piecewise. */
  lemma {:induction false} EscapeConcat(a: string, b: string)
    ensures Escape(a + b) == Escape(a) + Escape(b)
  {
    if a == [] {
      assert a + b == b;
    } else {
      var c, rest := a[0], a[1..];
      assert a == [c] + rest;
      assert a + b == [c] + (rest + b);
      EscapeConcat(rest, b);
      EscapeCons(c, rest);
      EscapeCons(c, rest + b);
      ConcatAssoc(Entity(c), Escape(rest), Escape(b));
    }
  }

  lemma EscapeCons(c: char, s: string)
    ensures Escape([c] + s) == Entity(c) + Escape(s)
  {
    assert ([c] + s)[1..] == s;
  }
}

=== FILE: inventory.dfy ===
/** The asset collection under `ensInventory`: lookup by tag and
    `DataService.updateInv`, an upsert keyed on `tag` that merges the supplied
    fields into an existing record or appends a new one. */
module Inventory {
  import opened Optional
  import opened Records
  import opened Store

  /** Position `i` holds the first record carrying `tag`. */
  predicate FirstWithTag(inv: seq<Record>, tag: string, i: int) {
    && 0 <= i < |inv|
    && HasTag(inv[i], tag)
    && forall j :: 0 <= j < i ==> !HasTag(inv[j], tag)
  }

  predicate NoTag(inv: seq<Record>, tag: string) {
    forall j :: 0 <= j < |inv| ==> !HasTag(inv[j], tag)
  }

  /** No two records carry the same `tag` value. */
  predicate UniqueTags(inv: seq<Record>) {
    forall i, j :: 0 <= i < j < |inv| && "tag" in inv[i] && "tag" in inv[j] ==> inv[i]["tag"] != inv[j]["tag"]
  }

  /** `inv.findIndex(i => i.tag === tag)`: the first position with the tag, or -1. */
  function FindIndex(inv: seq<Record>, tag: string): (r: int)
    ensures -1 <= r < |inv|
    ensures r >= 0 ==> FirstWithTag(inv, tag, r)
    ensures r == -1 <==> NoTag(inv, tag)
  {
    if inv == [] then -1
    else if HasTag(inv[0], tag) then 0
    else
      var k := FindIndex(inv[1..], tag);
      if k == -1 then -1 else k + 1
  }

  /** `inv.find(i => i.tag === tag)` as the edit form uses it, with an explicit
      "not found" instead of `undefined`. */
  function FindByTag(inv: seq<Record>, tag: string): (r: Option<Record>)
    ensures r.None? <==> NoTag(inv, tag)
    ensures r.Some? ==> exists i :: FirstWithTag(inv, tag, i) && inv[i] == r.value
  {
    var i := FindIndex(inv, tag);
    if i < 0 then None else Some(inv[i])
  }

  /** The body of `DataService.updateInv` on the array it reads. */
  function Upsert(inv: seq<Record>, tag: string, data: Record): (r: seq<Record>)
    ensures forall i :: FirstWithTag(inv, tag, i) ==>
              && |r| == |inv|
              && r[i] == Merge(inv[i], data)
              && forall j :: 0 <= j < |inv| && j != i ==> r[j] == inv[j]
    ensures NoTag(inv, tag) ==> r == inv + [Merge(map["tag" := tag], data)]
  {
    var i := FindIndex(inv, tag);
    if i > -1 then inv[i := Merge(inv[i], data)]
    else inv + [Merge(map["tag" := tag], data)]
  }

  lemma FirstWithTagUnique(inv: seq<Record>, tag: string, i: int, j: int)
    requires FirstWithTag(inv, tag, i) && FirstWithTag(inv, tag, j)
    ensures i == j
  {
  }

  /** After an upsert that does not itself rewrite `tag`, looking the tag up
      finds the merged record. */
  lemma UpsertThenFind(inv: seq<Record>, tag: string, data: Record)
    requires "tag" !in data
    ensures var r := Upsert(inv, tag, data);
            FindByTag(r, tag).Some? && HasTag(FindByTag(r, tag).value, tag)
    ensures forall i :: FirstWithTag(inv, tag, i) ==>
              FindByTag(Upsert(inv, tag, data), tag) == Some(Merge(inv[i], data))
    ensures NoTag(inv, tag) ==>
              FindByTag(Upsert(inv, tag, data), tag) == Some(Merge(map["tag" := tag], data))
  {
    var r := Upsert(inv, tag, data);
    var i := FindIndex(inv, tag);
    if i >= 0 {
      assert FirstWithTag(r, tag, i);
      var k :| FirstWithTag(r, tag, k) && r[k] == FindByTag(r, tag).value;
      FirstWithTagUnique(r, tag, i, k);
      forall i' | FirstWithTag(inv, tag, i')
        ensures FindByTag(r, tag) == Some(Merge(inv[i'], data))
      {
        FirstWithTagUnique(inv, tag, i, i');
      }
    } else {
      assert FirstWithTag(r, tag, |inv|);
      var k :| FirstWithTag(r, tag, k) && r[k] == FindByTag(r, tag).value;
      FirstWithTagUnique(r, tag, |inv|, k);
    }
  }

  /** An upsert that does not rewrite `tag` never creates a second record for a
      tag: uniqueness of tags is preserved. */
  lemma UpsertKeepsUnique(inv: seq<Record>, tag: string, data: Record)
    requires UniqueTags(inv)
    requires "tag" !in data
    ensures UniqueTags(Upsert(inv, tag, data))
  {
    var r := Upsert(inv, tag, data);
    var i := FindIndex(inv, tag);
    if i >= 0 {
      assert forall j :: 0 <= j < |r| ==> ("tag" in r[j] <==> "tag" in inv[j]);
      assert forall j :: 0 <= j < |r| && "tag" in r[j] ==> r[j]["tag"] == inv[j]["tag"];
    } else {
      assert forall j :: 0 <= j < |inv| ==> r[j] == inv[j];
      assert HasTag(r[|inv|], tag);
    }
  }

  /** After such an upsert exactly one record carries the tag, when tags were unique before. */
  lemma UpsertExactlyOne(inv: seq<Record>, tag: string, data: Record)
    requires UniqueTags(inv)
    requires "tag" !in data
    ensures var r := Upsert(inv, tag, data);
            exists i :: 0 <= i < |r| && HasTag(r[i], tag)
                        && forall j :: 0 <= j < |r| && j != i ==> !HasTag(r[j], tag)
  {
    UpsertKeepsUnique(inv, tag, data);
    UpsertThenFind(inv, tag, data);
    var r := Upsert(inv, tag, data);
    var i :| FirstWithTag(r, tag, i);
    assert forall j :: 0 <= j < |r| && j != i ==> !HasTag(r[j], tag);
  }

  /** One call of `updateInv`. */
  datatype Update = Update(tag: string, data: Record)

  /** A run of `updateInv` calls applied in order. */
  function UpsertAll(inv: seq<Record>, ops: seq<Update>): seq<Record>
    decreases |ops|
  {
    if ops == [] then inv
    else UpsertAll(Upsert(inv, ops[0].tag, ops[0].data), ops[1..])
  }

  /** Uniqueness of tags survives any sequence of upserts from the edit form and
      the issuance workflow, neither of which passes `tag` among the fields. */
  lemma {:induction false} UpsertAllKeepsUnique(inv: seq<Record>, ops: seq<Update>)
    requires UniqueTags(inv)
    requires forall k :: 0 <= k < |ops| ==> "tag" !in ops[k].data
    ensures UniqueTags(UpsertAll(inv, ops))
    decreases |ops|
  {
    if ops != [] {
      UpsertKeepsUnique(inv, ops[0].tag, ops[0].data);
      UpsertAllKeepsUnique(Upsert(inv, ops[0].tag, ops[0].data), ops[1..]);
    }
  }

  /** `DataService.updateInv`: read the inventory, upsert, write it back. */
  function UpdateInv(s: Store, tag: string, data: Record): (r: Store)
    ensures forall k :: k != InventoryKey ==> Get(r, k) == Get(s, k)
    ensures Get(r, InventoryKey) == Upsert(Get(s, InventoryKey), tag, data)
    ensures |Get(r, InventoryKey)| == |Get(s, InventoryKey)| + (if NoTag(Get(s, InventoryKey), tag) then 1 else 0)
    ensures "tag" !in data ==> FindByTag(Get(r, InventoryKey), tag).Some?
    ensures "tag" !in data && UniqueTags(Get(s, InventoryKey)) ==> UniqueTags(Get(r, InventoryKey))
  {
    var inv := Get(s, InventoryKey);
    UpsertFacts(inv, tag, data);
    Set(s, InventoryKey, Upsert(inv, tag, data))
  }

  lemma UpsertFacts(inv: seq<Record>, tag: string, data: Record)
    ensures |Upsert(inv, tag, data)| == |inv| + (if NoTag(inv, tag) then 1 else 0)
    ensures "tag" !in data ==> FindByTag(Upsert(inv, tag, data), tag).Some?
    ensures "tag" !in data && UniqueTags(inv) ==> UniqueTags(Upsert(inv, tag, data))
  {
    if FindIndex(inv, tag) >= 0 {
      assert FirstWithTag(inv, tag, FindIndex(inv, tag));
    }
    if "tag" !in data {
      UpsertThenFind(inv, tag, data);
      if UniqueTags(inv) {
        UpsertKeepsUnique(inv, tag, data);
      }
    }
  }

  /** Merging `{status: "Assigned", user: "Bob"}` into the seeded laptop record
      changes exactly those two fields. */
  lemma MergeScenario()
    ensures var before := map["tag" := "A-1", "type" := "Laptop", "status" := "Available",
                               "model" := "X", "user" := "Sys"];
            var after := Upsert([before], "A-1", map["status" := "Assigned", "user" := "Bob"]);
            FindByTag(after, "A-1") == Some(map["tag" := "A-1", "type" := "Laptop", "status" := "Assigned",
                                                "model" := "X", "user" := "Bob"])
  {
    var before := map["tag" := "A-1", "type" := "Laptop", "status" := "Available",
                      "model" := "X", "user" := "Sys"];
    var data := map["status" := "Assigned", "user" := "Bob"];
    assert FirstWithTag([before], "A-1", 0);
    UpsertThenFind([before], "A-1", data);
    assert Merge(before, data) == map["tag" := "A-1", "type" := "Laptop", "status" := "Assigned",
                                      "model" := "X", "user" := "Bob"];
  }
}

=== FILE: optional.dfy ===
/** Option and Result values, used wherever the application either finds nothing
    (`Array.prototype.find` returning `undefined`) or reports an error message. */
module Optional {

  datatype Option<+T> = None | Some(value: T)

  datatype Result<+T, +E> = Ok(value: T) | Err(error: E)
}

=== FILE: paging.dfy ===
/** The pagination stage of `UI.renderInventory`: `data.slice(start, start + limit)`
    with `start = (pg - 1) * limit`, the "Showing a - b of total" label and the
    disabled state of the previous/next buttons. */
module Paging {
  import opened Arith

  /** How `Array.prototype.slice` reads an index: negative counts from the end,
      and the result is clamped to `[0, len]`. */
  function SliceIndex(i: int, len: nat): (r: nat)
    ensures r <= len
    ensures 0 <= i ==> r == Min(i, len)
    ensures i < 0 && -i <= len ==> r == len + i
    ensures i < 0 && -i > len ==> r == 0
  {
    if i < 0 then (if len + i < 0 then 0 else len + i)
    else if i > len then len
    else i
  }

  /** `r` is the run of `s` starting at `b`. */
  ghost predicate RunAt<T>(s: seq<T>, r: seq<T>, b: int) {
    0 <= b <= |s| - |r| && r == s[b..b + |r|]
  }

  /** `Array.prototype.slice(begin, end)`. */
  function JsSlice<T>(s: seq<T>, begin: int, end: int): (r: seq<T>)
    ensures exists b :: RunAt(s, r, b)
    ensures 0 <= begin <= end ==> r == s[Min(begin, |s|)..Min(end, |s|)]
  {
    var b := SliceIndex(begin, |s|);
    var e := SliceIndex(end, |s|);
    var r := if b < e then s[b..e] else [];
    assert RunAt(s, r, if b < e then b else 0);
    r
  }

  /** What the inventory view shows for one page. */
  datatype Page<T> = Page(
    items: seq<T>,       // the rows of this page
    total: nat,          // the number of rows after filtering
    first: int,          // "Showing first - last of total"
    last: int,
    prevDisabled: bool,
    nextDisabled: bool)

  function Start(pg: int, limit: int): int {
    (pg - 1) * limit
  }

  function Paginate<T>(data: seq<T>, pg: int, limit: int): (p: Page<T>)
    ensures p.total == |data|
    ensures forall x :: x in p.items ==> x in data
  {
    var total := |data|;
    var start := Start(pg, limit);
    var items := JsSlice(data, start, start + limit);
    assert forall x :: x in items ==> x in data;
    Page(items, total, Min(start + 1, total), Min(start + limit, total),
         pg == 1, start + limit >= total)
  }

  lemma StartNonNegative(pg: int, limit: int)
    requires pg >= 1 && limit > 0
    ensures Start(pg, limit) >= 0
  {
    assert (pg - 1) * limit >= 0;
  }

  /** The window `[start, start + limit)` of the data, clipped to its length. */
  function Window<T>(data: seq<T>, pg: int, limit: int): (r: seq<T>)
    requires pg >= 1 && limit > 0
    ensures |r| <= limit
  {
    var start := Start(pg, limit);
    StartNonNegative(pg, limit);
    data[Min(start, |data|)..Min(start + limit, |data|)]
  }

  /** For a page number from 1 on and a positive page size, the page is the
      window of the data. */
  lemma PageWindow<T>(data: seq<T>, pg: int, limit: int)
    requires pg >= 1 && limit > 0
    ensures Paginate(data, pg, limit).items == Window(data, pg, limit)
  {
    StartNonNegative(pg, limit);
  }

  lemma PageWindowFacts<T>(data: seq<T>, pg: int, limit: int)
    ensures pg >= 1 && limit > 0 ==> |Paginate(data, pg, limit).items| <= limit
  {
    if pg >= 1 && limit > 0 {
      PageWindow(data, pg, limit);
    }
  }

  /** A page number past the last page gives no rows, the total stays the data's
      length, and the next button is disabled. */
  lemma PastLastPage<T>(data: seq<T>, pg: int, limit: int)
    requires pg >= 1 && limit > 0
    requires Start(pg, limit) >= |data|
    ensures var p := Paginate(data, pg, limit);
            p.items == [] && p.total == |data| && p.nextDisabled
  {
    PageWindow(data, pg, limit);
  }

  /** The button flags mean what they say: on a valid page, previous is
      disabled exactly when there is no page before it, and next exactly when
      the following page would show no rows. */
  lemma PageFlags<T>(data: seq<T>, pg: int, limit: int)
    requires pg >= 1 && limit > 0
    ensures Paginate(data, pg, limit).prevDisabled <==> pg - 1 < 1
    ensures Paginate(data, pg, limit).nextDisabled <==> Paginate(data, pg + 1, limit).items == []
  {
    StartStep(pg, limit);
    PageLabel(data, pg + 1, limit);
  }

  /** On a non-empty page the label numbers the rows shown, 1-based; past the
      end it reads "total - total". */
  lemma PageLabel<T>(data: seq<T>, pg: int, limit: int)
    requires pg >= 1 && limit > 0
    ensures var p := Paginate(data, pg, limit);
            var start := Start(pg, limit);
            && (start < |data| ==> p.first == start + 1 && p.last == start + |p.items| && |p.items| > 0)
            && (start >= |data| ==> p.first == |data| && p.last == |data| && p.items == [])
  {
    PageWindow(data, pg, limit);
    StartNonNegative(pg, limit);
    var start := Start(pg, limit);
    var p := Paginate(data, pg, limit);
    if start < |data| {
      assert p.items == data[start..Min(start + limit, |data|)];
      assert |p.items| == Min(start + limit, |data|) - start;
    } else {
      assert p.items == data[|data|..|data|];
    }
  }

  lemma StartStep(pg: int, limit: int)
    ensures Start(pg + 1, limit) == Start(pg, limit) + limit
  {
    calc {
      Start(pg + 1, limit);
      pg * limit;
      { assert pg * limit == (pg - 1) * limit + limit; }
      Start(pg, limit) + limit;
    }
  }

  /** 25 rows, ten to a page, page 3: five rows, no next page, a previous one. */
  lemma PaginationScenario<T>(data: seq<T>)
    requires |data| == 25
    ensures var p := Paginate(data, 3, 10);
            |p.items| == 5 && p.nextDisabled && !p.prevDisabled && p.first == 21 && p.last == 25
  {
    PageLabel(data, 3, 10);
  }
}

=== FILE: query.dfy ===
/** The filter and "smart sort" stages of `UI.renderInventory`. */
module Query {
  import opened Records
  import opened Text
  import Sorting

  /* ---------- filter ---------- */

  /** Some field value, lower-cased, contains the lower-cased search text. */
  predicate MatchesSearch(r: Record, search: string) {
    exists k :: k in r && Includes(Lower(r[k]), Lower(search))
  }

  /** The status drop-down: `'All'` or an exact status. */
  predicate MatchesFilter(r: Record, filter: string) {
    filter == "All" || ("status" in r && r["status"] == filter)
  }

  predicate Keep(r: Record, search: string, filter: string) {
    MatchesSearch(r, search) && MatchesFilter(r, filter)
  }

  /** `xs` is `ys` with some elements left out, the rest in their order. */
  predicate IsSubsequence<T(==)>(xs: seq<T>, ys: seq<T>)
    decreases |ys|
  {
    if xs == [] then true
    else if ys == [] then false
    else if xs[0] == ys[0] then IsSubsequence(xs[1..], ys[1..])
    else IsSubsequence(xs, ys[1..])
  }

  /** `data.filter(...)` of the inventory view. */
  function Filter(inv: seq<Record>, search: string, filter: string): (r: seq<Record>)
    ensures IsSubsequence(r, inv)
    ensures forall x :: x in r <==> x in inv && Keep(x, search, filter)
    ensures |r| <= |inv|
    ensures forall x :: multiset(r)[x] == if Keep(x, search, filter) then multiset(inv)[x] else 0
  {
    if inv == [] then []
    else
      var rest := Filter(inv[1..], search, filter);
      assert multiset(inv) == multiset{inv[0]} + multiset(inv[1..]) by {
        assert inv == [inv[0]] + inv[1..];
      }
      if Keep(inv[0], search, filter) then [inv[0]] + rest else rest
  }

  /** With an empty search and the `'All'` filter, the records kept are
      exactly those with at least one field. */
  lemma EmptySearchKeepsNonEmpty(inv: seq<Record>)
    ensures forall x :: x in Filter(inv, "", "All") <==> x in inv && |x| > 0
  {
    forall x | x in inv && |x| > 0
      ensures MatchesSearch(x, "")
    {
      var k :| k in x;
      assert Includes(Lower(x[k]), Lower(""));
    }
  }

  /* ---------- sort ---------- */

  /** The comparator of the smart sort on column `col`: numeric when both values
      are non-empty numbers, otherwise lower-cased string comparison. */
  function Cmp(a: Record, b: Record, col: string, asc: bool): (r: int)
    ensures IsNumeric(Field(a, col)) && IsNumeric(Field(b, col)) ==>
              var na, nb := ParseNat(Field(a, col)), ParseNat(Field(b, col));
              && (r == 0 <==> na == nb)
              && (r < 0 <==> if asc then na < nb else nb < na)
    ensures !(IsNumeric(Field(a, col)) && IsNumeric(Field(b, col))) ==>
              var la, lb := Lower(Field(a, col)), Lower(Field(b, col));
              && (r == 0 <==> la == lb)
              && (r < 0 <==> if asc then LexLess(la, lb) else LexLess(lb, la))
  {
    var va := Field(a, col);
    var vb := Field(b, col);
    if IsNumeric(va) && IsNumeric(vb) then
      if asc then ParseNat(va) - ParseNat(vb) else ParseNat(vb) - ParseNat(va)
    else
      var la := Lower(va);
      var lb := Lower(vb);
      LexLessTrichotomy(la, lb);
      LexLessIrreflexive(la);
      if LexLess(la, lb) then (if asc then -1 else 1)
      else if LexLess(lb, la) then (if asc then 1 else -1)
      else 0
  }

  /** Swapping the two records flips the sign of the comparison. */
  lemma CmpAntisymmetric(a: Record, b: Record, col: string, asc: bool)
    ensures Cmp(a, b, col, asc) < 0 <==> Cmp(b, a, col, asc) > 0
    ensures Cmp(a, b, col, asc) == 0 <==> Cmp(b, a, col, asc) == 0
  {
    LexLessTrichotomy(Lower(Field(a, col)), Lower(Field(b, col)));
  }

  /** The comparator with the column and direction fixed, as the sort call sees it. */
  function Comparator(col: string, asc: bool): (Record, Record) -> int {
    (a, b) => Cmp(a, b, col, asc)
  }

  /** The smart sort of the inventory view on column `col`. */
  function SortRecords(xs: seq<Record>, col: string, asc: bool): (r: seq<Record>)
    ensures multiset(r) == multiset(xs)
  {
    Sorting.Sort(xs, Comparator(col, asc))
  }

  predicate AllNumeric(xs: seq<Record>, col: string) {
    forall x :: x in xs ==> IsNumeric(Field(x, col))
  }

  predicate NoneNumeric(xs: seq<Record>, col: string) {
    forall x :: x in xs ==> !IsNumeric(Field(x, col))
  }

  /** The number a record holds in a numeric column. */
  function Num(r: Record, col: string): nat
    requires IsNumeric(Field(r, col))
  {
    ParseNat(Field(r, col))
  }

  /** Two numbers in the sort column are compared by subtraction. */
  lemma NumericCmp(a: Record, b: Record, col: string, asc: bool)
    requires IsNumeric(Field(a, col)) && IsNumeric(Field(b, col))
    ensures Comparator(col, asc)(a, b) == if asc then Num(a, col) - Num(b, col) else Num(b, col) - Num(a, col)
  {
  }

  /** In a column of numbers the comparator is the numeric order, and so a
      total preorder. */
  lemma NumericPreorder(xs: seq<Record>, col: string, asc: bool)
    requires AllNumeric(xs, col)
    ensures forall a, b :: a in xs && b in xs ==>
              (Sorting.Le(Comparator(col, asc), a, b) <==>
                 if asc then Num(a, col) <= Num(b, col) else Num(b, col) <= Num(a, col))
    ensures Sorting.PreorderOn(xs, Comparator(col, asc))
  {
    forall a, b | a in xs && b in xs
      ensures Comparator(col, asc)(a, b) == if asc then Num(a, col) - Num(b, col) else Num(b, col) - Num(a, col)
    {
      NumericCmp(a, b, col, asc);
    }
  }

  /** A column of numbers sorts numerically: non-decreasing when ascending,
      non-increasing when descending. */
  lemma NumericSortOrder(xs: seq<Record>, col: string, asc: bool)
    requires AllNumeric(xs, col)
    ensures AllNumeric(SortRecords(xs, col, asc), col)
    ensures var r := SortRecords(xs, col, asc);
            forall i, j :: 0 <= i < j < |r| ==>
              if asc then Num(r[i], col) <= Num(r[j], col) else Num(r[i], col) >= Num(r[j], col)
  {
    var cmp := Comparator(col, asc);
    var r := SortRecords(xs, col, asc);
    NumericPreorder(xs, col, asc);
    assert Sorting.Sorted(r, cmp) by {
      Sorting.SortSorted(xs, cmp, xs);
    }
    assert forall z :: z in r ==> z in xs by {
      Sorting.SortMembers(xs, cmp);
    }
    forall i, j | 0 <= i < j < |r|
      ensures if asc then Num(r[i], col) <= Num(r[j], col) else Num(r[i], col) >= Num(r[j], col)
    {
      assert r[i] in xs && r[j] in xs;
      assert Sorting.Le(cmp, r[i], r[j]);
    }
  }

  /** Lower-cased string order, "a does not come after b". */
  predicate TextLe(a: Record, b: Record, col: string) {
    !LexLess(Lower(Field(b, col)), Lower(Field(a, col)))
  }

  /** In a column without numbers the comparator is the lower-cased string
      order, and so a total preorder. */
  lemma TextPreorder(xs: seq<Record>, col: string, asc: bool)
    requires NoneNumeric(xs, col)
    ensures forall a, b :: a in xs && b in xs ==>
              (Sorting.Le(Comparator(col, asc), a, b) <==> if asc then TextLe(a, b, col) else TextLe(b, a, col))
    ensures Sorting.PreorderOn(xs, Comparator(col, asc))
  {
    var cmp := Comparator(col, asc);
    forall a, b | a in xs && b in xs
      ensures Sorting.Le(cmp, a, b) <==> (if asc then TextLe(a, b, col) else TextLe(b, a, col))
    {
      LexLessTrichotomy(Lower(Field(a, col)), Lower(Field(b, col)));
    }
    forall a, b | a in xs && b in xs
      ensures Sorting.Le(cmp, a, b) || Sorting.Le(cmp, b, a)
    {
      LexLessTrichotomy(Lower(Field(a, col)), Lower(Field(b, col)));
    }
    forall a, b, c | a in xs && b in xs && c in xs && Sorting.Le(cmp, a, b) && Sorting.Le(cmp, b, c)
      ensures Sorting.Le(cmp, a, c)
    {
      if asc {
        TextLeTransitive(a, b, c, col);
      } else {
        TextLeTransitive(c, b, a, col);
      }
    }
  }

  lemma TextLeTransitive(a: Record, b: Record, c: Record, col: string)
    requires TextLe(a, b, col) && TextLe(b, c, col)
    ensures TextLe(a, c, col)
  {
    var la, lb, lc := Lower(Field(a, col)), Lower(Field(b, col)), Lower(Field(c, col));
    LexLessTrichotomy(la, lb);
    LexLessTrichotomy(lb, lc);
    LexLessTrichotomy(la, lc);
    if LexLess(lc, la) {
      if la != lb && lb != lc {
        LexLessTransitive(la, lb, lc);
      }
    }
  }

  /** A column without numbers sorts by lower-cased string order, ascending or descending. */
  lemma TextSortOrder(xs: seq<Record>, col: string, asc: bool)
    requires NoneNumeric(xs, col)
    ensures var r := SortRecords(xs, col, asc);
            forall i, j :: 0 <= i < j < |r| ==>
              if asc then TextLe(r[i], r[j], col) else TextLe(r[j], r[i], col)
  {
    var cmp := Comparator(col, asc);
    var r := SortRecords(xs, col, asc);
    TextPreorder(xs, col, asc);
    assert Sorting.Sorted(r, cmp) by {
      Sorting.SortSorted(xs, cmp, xs);
    }
    assert forall z :: z in r ==> z in xs by {
      Sorting.SortMembers(xs, cmp);
    }
    forall i, j | 0 <= i < j < |r|
      ensures if asc then TextLe(r[i], r[j], col) else TextLe(r[j], r[i], col)
    {
      assert r[i] in xs && r[j] in xs;
      assert Sorting.Le(cmp, r[i], r[j]);
    }
  }

  /** The smart sort is stable on a column of numbers and on a column without
      numbers: the records comparing equal to any `x` (same number, or the same
      text up to case) keep their stored order. */
  lemma SortRecordsStable(xs: seq<Record>, col: string, asc: bool, x: Record)
    requires AllNumeric(xs, col) || NoneNumeric(xs, col)
    requires x in xs
    ensures Sorting.Ties(SortRecords(xs, col, asc), x, Comparator(col, asc))
            == Sorting.Ties(xs, x, Comparator(col, asc))
  {
    if AllNumeric(xs, col) {
      NumericPreorder(xs, col, asc);
    } else {
      TextPreorder(xs, col, asc);
    }
    Sorting.SortStable(xs, x, Comparator(col, asc), xs);
  }

  /** Values mixing numbers and text make the comparator cyclic: "9" before
      "10" numerically, "10" before "1a" and "1a" before "9" as strings. */
  lemma MixedColumnCycle()
    ensures var a := map["tag" := "9"];
            var b := map["tag" := "10"];
            var c := map["tag" := "1a"];
            Cmp(a, b, "tag", true) < 0 && Cmp(b, c, "tag", true) < 0 && Cmp(c, a, "tag", true) < 0
  {
    var a := map["tag" := "9"];
    var b := map["tag" := "10"];
    var c := map["tag" := "1a"];
    assert ParseNat("10") == 10 by {
      assert "10"[..1] == "1";
    }
    assert Cmp(a, b, "tag", true) < 0;
    CycleTextFacts();
    TextCmpLess(b, c, "tag");
    TextCmpLess(c, a, "tag");
  }

  lemma CycleTextFacts()
    ensures !IsNumeric("1a")
    ensures LexLess(Lower("10"), Lower("1a")) && LexLess(Lower("1a"), Lower("9"))
  {
    assert !IsDigit("1a"[1]);
    assert Lower("10") == "10";
    assert Lower("1a") == "1a";
    assert Lower("9") == "9";
    assert LexLess("10", "1a");
    assert LexLess("1a", "9");
  }

  /** Outside the all-numeric case, a string-order "less" gives a negative comparison. */
  lemma TextCmpLess(a: Record, b: Record, col: string)
    requires !IsNumeric(Field(a, col)) || !IsNumeric(Field(b, col))
    requires LexLess(Lower(Field(a, col)), Lower(Field(b, col)))
    ensures Cmp(a, b, col, true) < 0
  {
  }

  /** Tags "9", "10", "2" sort ascending as "2", "9", "10", not as strings. */
  lemma NumericSortScenario()
    ensures var r9, r10, r2 := map["tag" := "9"], map["tag" := "10"], map["tag" := "2"];
            SortRecords([r9, r10, r2], "tag", true) == [r2, r9, r10]
  {
    var r9, r10, r2 := map["tag" := "9"], map["tag" := "10"], map["tag" := "2"];
    var cmp := Comparator("tag", true);
    ScenarioComparisons();
    var xs := [r9, r10, r2];
    assert xs[..2] == [r9, r10];
    assert [r9, r10][..1] == [r9];
    assert Sorting.Sort([r9], cmp) == [r9];
    assert Sorting.Insert(r10, [r9], cmp) == [r9, r10];
    assert Sorting.Sort([r9, r10], cmp) == [r9, r10];
    assert Sorting.Insert(r2, [r9, r10], cmp) == [r2, r9, r10];
  }

  lemma ScenarioComparisons()
    ensures var r9, r10, r2 := map["tag" := "9"], map["tag" := "10"], map["tag" := "2"];
            var cmp := Comparator("tag", true);
            cmp(r9, r10) < 0 && cmp(r9, r2) > 0
  {
    var r9, r10, r2 := map["tag" := "9"], map["tag" := "10"], map["tag" := "2"];
    assert ParseNat("10") == 10 by {
      assert "10"[..1] == "1";
    }
    assert IsNumeric("10") && IsNumeric("9") && IsNumeric("2");
    NumericCmp(r9, r10, "tag", true);
    NumericCmp(r9, r2, "tag", true);
  }


}

=== FILE: records.dfy ===
/** The JSON objects the application keeps: an inventory item
    `{tag, type, model, user, status}` or an activity entry
    `{ref, type, user, date, details}`, both as field name to string value. */
module Records {

  type Record = map<string, string>

  /** `r[k] || ''`: a missing field reads as the empty string. */
  function Field(r: Record, k: string): (v: string)
    ensures k in r ==> v == r[k]
    ensures k !in r ==> v == ""
  {
    if k in r then r[k] else ""
  }

  /** The predicate `i => i.tag === tag` of `findIndex` and `find`. */
  predicate HasTag(r: Record, tag: string) {
    "tag" in r && r["tag"] == tag
  }

  /** Object spread `{ ...base, ...data }`: every field of either, the later object winning. */
  function Merge(base: Record, data: Record): (r: Record)
    ensures r.Keys == base.Keys + data.Keys
    ensures forall k :: k in data ==> r[k] == data[k]
    ensures forall k :: k in base && k !in data ==> r[k] == base[k]
  {
    base + data
  }
}

=== FILE: sorting.dfy ===
/** A stable insertion sort driven by a JavaScript-style comparator (negative,
    zero or positive), which is how `Array.prototype.sort` is modelled. */
module Sorting {
  import opened Arith

  /** `a` may stay before `b`. */
  predicate Le<T>(cmp: (T, T) -> int, a: T, b: T) {
    cmp(a, b) <= 0
  }

  predicate Sorted<T>(xs: seq<T>, cmp: (T, T) -> int) {
    forall i, j :: 0 <= i < j < |xs| ==> Le(cmp, xs[i], xs[j])
  }

  /** On the elements of `all` the comparator is a total preorder: any two are
      comparable and "may stay before" is transitive. */
  ghost predicate PreorderOn<T>(all: seq<T>, cmp: (T, T) -> int) {
    && (forall a, b :: a in all && b in all ==> Le(cmp, a, b) || Le(cmp, b, a))
    && (forall a, b, c :: a in all && b in all && c in all && Le(cmp, a, b) && Le(cmp, b, c) ==> Le(cmp, a, c))
  }

  /** Places `x` after every leading element that does not compare greater than it. */
  function Insert<T(==)>(x: T, ys: seq<T>, cmp: (T, T) -> int): (r: seq<T>)
    ensures multiset(r) == multiset(ys) + multiset{x}
    ensures |r| == |ys| + 1
  {
    if ys == [] then [x]
    else if cmp(ys[0], x) > 0 then [x] + ys
    else
      assert ys == [ys[0]] + ys[1..];
      [ys[0]] + Insert(x, ys[1..], cmp)
  }

  /** Inserts the elements one by one, each after those already placed that
      compare equal, so equal elements keep their relative order. */
  function Sort<T(==)>(xs: seq<T>, cmp: (T, T) -> int): (r: seq<T>)
    ensures multiset(r) == multiset(xs)
    ensures |r| == |xs|
  {
    if xs == [] then []
    else
      assert xs == xs[..|xs| - 1] + [xs[|xs| - 1]];
      Insert(xs[|xs| - 1], Sort(xs[..|xs| - 1], cmp), cmp)
  }

  lemma {:induction false} InsertSorted<T>(x: T, ys: seq<T>, cmp: (T, T) -> int, all: seq<T>)
    requires PreorderOn(all, cmp)
    requires x in all && forall z :: z in ys ==> z in all
    requires Sorted(ys, cmp)
    ensures Sorted(Insert(x, ys, cmp), cmp)
    decreases |ys|
  {
    if ys != [] {
      if cmp(ys[0], x) > 0 {
        assert Le(cmp, x, ys[0]);
        var r := [x] + ys;
        forall i, j | 0 <= i < j < |r|
          ensures Le(cmp, r[i], r[j])
        {
          if i == 0 && j > 1 {
            assert Le(cmp, ys[0], ys[j - 1]);
            assert ys[0] in all && ys[j - 1] in all;
          }
        }
      } else {
        var rest := Insert(x, ys[1..], cmp);
        InsertSorted(x, ys[1..], cmp, all);
        var r := [ys[0]] + rest;
        forall j | 1 <= j < |r|
          ensures Le(cmp, ys[0], r[j])
        {
          assert r[j] in multiset(rest);
          assert r[j] == x || r[j] in ys[1..];
        }
      }
    }
  }

  /** When the comparator is a total preorder on the elements, the result is sorted. */
  lemma {:induction false} SortSorted<T>(xs: seq<T>, cmp: (T, T) -> int, all: seq<T>)
    requires PreorderOn(all, cmp)
    requires forall z :: z in xs ==> z in all
    ensures Sorted(Sort(xs, cmp), cmp)
  {
    if xs != [] {
      var init := xs[..|xs| - 1];
      SortSorted(init, cmp, all);
      var s := Sort(init, cmp);
      forall z | z in s
        ensures z in all
      {
        assert z in multiset(init);
      }
      InsertSorted(xs[|xs| - 1], s, cmp, all);
    }
  }

  lemma {:induction false} InsertAfterAll<T>(x: T, ys: seq<T>, cmp: (T, T) -> int)
    requires forall k :: 0 <= k < |ys| ==> Le(cmp, ys[k], x)
    ensures Insert(x, ys, cmp) == ys + [x]
    decreases |ys|
  {
    if ys != [] {
      assert forall k :: 0 <= k < |ys| - 1 ==> ys[1..][k] == ys[k + 1];
      InsertAfterAll(x, ys[1..], cmp);
      assert ys + [x] == [ys[0]] + (ys[1..] + [x]);
    }
  }

  lemma SortedSplit<T>(xs: seq<T>, cmp: (T, T) -> int)
    requires Sorted(xs, cmp) && xs != []
    ensures Sorted(xs[..|xs| - 1], cmp)
    ensures forall k :: 0 <= k < |xs| - 1 ==> Le(cmp, xs[k], xs[|xs| - 1])
  {
    var init := xs[..|xs| - 1];
    forall i, j | 0 <= i < j < |init|
      ensures Le(cmp, init[i], init[j])
    {
      assert init[i] == xs[i] && init[j] == xs[j];
    }
  }

  /** A list already in order comes back unchanged, whatever the comparator:
      elements that compare equal are never reordered. */
  lemma {:induction false} SortKeepsSorted<T>(xs: seq<T>, cmp: (T, T) -> int)
    requires Sorted(xs, cmp)
    ensures Sort(xs, cmp) == xs
  {
    if xs != [] {
      var init := xs[..|xs| - 1];
      var x := xs[|xs| - 1];
      SortedSplit(xs, cmp);
      SortKeepsSorted(init, cmp);
      InsertAfterAll(x, init, cmp);
      assert init + [x] == xs;
    }
  }

  /** `a` and `b` compare equal. */
  predicate Tie<T>(cmp: (T, T) -> int, a: T, b: T) {
    Le(cmp, a, b) && Le(cmp, b, a)
  }

  /** The elements of `xs` that compare equal to `x`, in their order in `xs`. */
  function Ties<T>(xs: seq<T>, x: T, cmp: (T, T) -> int): seq<T>
  {
    if xs == [] then []
    else (if Tie(cmp, xs[0], x) then [xs[0]] else []) + Ties(xs[1..], x, cmp)
  }

  lemma {:induction false} TiesConcat<T>(xs: seq<T>, ys: seq<T>, x: T, cmp: (T, T) -> int)
    ensures Ties(xs + ys, x, cmp) == Ties(xs, x, cmp) + Ties(ys, x, cmp)
  {
    if xs == [] {
      assert xs + ys == ys;
    } else {
      assert (xs + ys)[1..] == xs[1..] + ys;
      TiesConcat(xs[1..], ys, x, cmp);
      ConcatAssoc(if Tie(cmp, xs[0], x) then [xs[0]] else [], Ties(xs[1..], x, cmp), Ties(ys, x, cmp));
    }
  }

  lemma {:induction false} TiesNone<T>(ys: seq<T>, x: T, cmp: (T, T) -> int)
    requires forall k :: 0 <= k < |ys| ==> !Tie(cmp, ys[k], x)
    ensures Ties(ys, x, cmp) == []
  {
    if ys != [] {
      assert forall k :: 0 <= k < |ys| - 1 ==> ys[1..][k] == ys[k + 1];
      TiesNone(ys[1..], x, cmp);
    }
  }

  /** Inserting `y` into a sorted list puts it after every element that ties
      with it, and no tying element follows it. */
  lemma {:induction false} InsertTies<T>(y: T, ys: seq<T>, x: T, cmp: (T, T) -> int, all: seq<T>)
    requires PreorderOn(all, cmp)
    requires x in all && y in all && forall z :: z in ys ==> z in all
    requires Sorted(ys, cmp)
    ensures Ties(Insert(y, ys, cmp), x, cmp) == Ties(ys, x, cmp) + Ties([y], x, cmp)
    decreases |ys|
  {
    if ys == [] {
    } else if cmp(ys[0], y) > 0 {
      InsertFrontTies(y, ys, x, cmp, all);
    } else {
      var head, tail := [ys[0]], ys[1..];
      SortedTail(ys, cmp);
      InsertTies(y, tail, x, cmp, all);
      assert Insert(y, ys, cmp) == head + Insert(y, tail, cmp);
      TiesConcat(head, Insert(y, tail, cmp), x, cmp);
      assert ys == head + tail;
      TiesConcat(head, tail, x, cmp);
      ConcatAssoc(Ties(head, x, cmp), Ties(tail, x, cmp), Ties([y], x, cmp));
    }
  }

  /** When `y` goes in front of a sorted list, no element of the list ties
      with anything `y` ties with. */
  lemma InsertFrontTies<T>(y: T, ys: seq<T>, x: T, cmp: (T, T) -> int, all: seq<T>)
    requires PreorderOn(all, cmp)
    requires x in all && y in all && forall z :: z in ys ==> z in all
    requires Sorted(ys, cmp) && ys != [] && cmp(ys[0], y) > 0
    ensures Ties(Insert(y, ys, cmp), x, cmp) == Ties(ys, x, cmp) + Ties([y], x, cmp)
  {
    assert Insert(y, ys, cmp) == [y] + ys;
    TiesConcat([y], ys, x, cmp);
    if Tie(cmp, y, x) {
      NothingTiesAfter(y, ys, x, cmp, all);
      TiesNone(ys, x, cmp);
    } else {
      assert Ties([y], x, cmp) == [];
    }
  }

  lemma NothingTiesAfter<T>(y: T, ys: seq<T>, x: T, cmp: (T, T) -> int, all: seq<T>)
    requires PreorderOn(all, cmp)
    requires x in all && y in all && forall z :: z in ys ==> z in all
    requires Sorted(ys, cmp) && ys != [] && cmp(ys[0], y) > 0
    requires Tie(cmp, y, x)
    ensures forall k :: 0 <= k < |ys| ==> !Tie(cmp, ys[k], x)
  {
    forall k | 0 <= k < |ys|
      ensures !Tie(cmp, ys[k], x)
    {
      if Tie(cmp, ys[k], x) {
        Transitive(ys[k], x, y, cmp, all);
        if k > 0 {
          Transitive(ys[0], ys[k], y, cmp, all);
        }
        assert false;
      }
    }
  }

  lemma Transitive<T>(a: T, b: T, c: T, cmp: (T, T) -> int, all: seq<T>)
    requires PreorderOn(all, cmp)
    requires a in all && b in all && c in all
    requires Le(cmp, a, b) && Le(cmp, b, c)
    ensures Le(cmp, a, c)
  {
  }

  lemma SortedTail<T>(ys: seq<T>, cmp: (T, T) -> int)
    requires Sorted(ys, cmp) && ys != []
    ensures Sorted(ys[1..], cmp)
    ensures forall z :: z in ys[1..] ==> z in ys
  {
    var tail := ys[1..];
    forall i, j | 0 <= i < j < |tail|
      ensures Le(cmp, tail[i], tail[j])
    {
      assert tail[i] == ys[i + 1] && tail[j] == ys[j + 1];
    }
  }

  /** The sort is stable: the elements tying with any `x` come out in the
      order they went in, when the comparator is a total preorder on them. */
  lemma {:induction false} SortStable<T>(xs: seq<T>, x: T, cmp: (T, T) -> int, all: seq<T>)
    requires PreorderOn(all, cmp)
    requires x in all && forall z :: z in xs ==> z in all
    ensures Ties(Sort(xs, cmp), x, cmp) == Ties(xs, x, cmp)
  {
    if xs != [] {
      var init, last := xs[..|xs| - 1], xs[|xs| - 1];
      var s := Sort(init, cmp);
      assert Ties(Sort(xs, cmp), x, cmp) == Ties(s, x, cmp) + Ties([last], x, cmp) by {
        assert Sort(xs, cmp) == Insert(last, s, cmp);
        SortSorted(init, cmp, all);
        SortMembers(init, cmp);
        InsertTies(last, s, x, cmp, all);
      }
      assert Ties(s, x, cmp) == Ties(init, x, cmp) by {
        SortStable(init, x, cmp, all);
      }
      assert Ties(xs, x, cmp) == Ties(init, x, cmp) + Ties([last], x, cmp) by {
        assert init + [last] == xs;
        TiesConcat(init, [last], x, cmp);
      }
    }
  }

  /** Every element of the sorted list comes from the input. */
  lemma SortMembers<T>(xs: seq<T>, cmp: (T, T) -> int)
    ensures forall z :: z in Sort(xs, cmp) <==> z in xs
  {
    var r := Sort(xs, cmp);
    forall z
      ensures z in r <==> z in xs
    {
      assert z in r <==> z in multiset(r);
    }
  }
}

=== FILE: store.dfy ===
/** `DataService.get` / `DataService.set` / `DataService.init`: the browser's
    key-value storage, each key holding a JSON array of records. JSON text is
    abstracted away: a stored value is the array it decodes to. */
module Store {
  import opened Records

  type Store = map<string, seq<Record>>

  const InventoryKey := "ensInventory"
  const ActivityKey := "ensActivity"

  /** A missing key reads as `[]`. */
  function Get(s: Store, k: string): (v: seq<Record>)
    ensures k in s ==> v == s[k]
    ensures k !in s ==> v == []
  {
    if k in s then s[k] else []
  }

  /** Replaces the whole value under `k`. */
  function Set(s: Store, k: string, v: seq<Record>): (r: Store)
    ensures r.Keys == s.Keys + {k}
    ensures Get(r, k) == v
    ensures forall k' :: k' != k ==> Get(r, k') == Get(s, k')
  {
    s[k := v]
  }

  /** The two records the inventory starts with. */
  const SeedInventory: seq<Record> := [
    map["tag" := "ENS-L-001", "type" := "Laptop", "model" := "Dell Latitude 7420",
        "user" := "System", "status" := "Available"],
    map["tag" := "ENS-M-102", "type" := "Mobile", "model" := "iPhone 13",
        "user" := "Sarah Connor", "status" := "Assigned"]
  ]

  /** On start-up an absent inventory is seeded and the activity log emptied;
      an inventory that is already there, even an empty one, is kept. */
  function Init(s: Store): (r: Store)
    ensures InventoryKey in s ==> r == s
    ensures InventoryKey !in s ==> Get(r, InventoryKey) == SeedInventory && Get(r, ActivityKey) == []
    ensures forall k :: k != InventoryKey && k != ActivityKey ==> Get(r, k) == Get(s, k)
  {
    if InventoryKey in s then s
    else Set(Set(s, InventoryKey, SeedInventory), ActivityKey, [])
  }

  lemma InitIdempotent(s: Store)
    ensures Init(Init(s)) == Init(s)
  {
  }
}

=== FILE: text.dfy ===
/** Character- and string-level helpers shared by the query pipeline and the
    sign-in form: ASCII lower-casing, substring search, decimal numbers, the
    ordering JavaScript's `<` uses on strings, and `String.prototype.trim`. */
module Text {
  import opened Arith

  /* ---------- lower case ---------- */

  predicate IsUpper(c: char) {
    'A' <= c <= 'Z'
  }

  function LowerChar(c: char): (d: char)
    ensures !IsUpper(d)
    ensures IsUpper(c) ==> d as int == c as int + 32
    ensures !IsUpper(c) ==> d == c
  {
    if IsUpper(c) then (c as int + 32) as char else c
  }

  /** `toLowerCase`, restricted to the ASCII letters. */
  function Lower(s: string): (r: string)
    ensures |r| == |s|
    ensures forall i :: 0 <= i < |r| ==> !IsUpper(r[i])
    ensures forall i :: 0 <= i < |s| && !IsUpper(s[i]) ==> r[i] == s[i]
    ensures forall i :: 0 <= i < |s| && IsUpper(s[i]) ==> r[i] as int == s[i] as int + 32
  {
    if s == [] then [] else [LowerChar(s[0])] + Lower(s[1..])
  }

  lemma {:induction false} LowerIdempotent(s: string)
    ensures Lower(Lower(s)) == Lower(s)
  {
    var t := Lower(s);
    assert forall i :: 0 <= i < |t| ==> Lower(t)[i] == t[i];
  }

  /* ---------- substring search ---------- */

  /** `needle` occurs in `hay` starting at position `i`. */
  predicate OccursAt(hay: string, needle: string, i: int) {
    0 <= i && i + |needle| <= |hay| && hay[i..i + |needle|] == needle
  }

  /** `String.prototype.includes`. */
  function Includes(hay: string, needle: string): bool
    decreases |hay|
  {
    if needle <= hay then true
    else if hay == [] then false
    else Includes(hay[1..], needle)
  }

  lemma {:induction false} IncludesIff(hay: string, needle: string)
    ensures Includes(hay, needle) <==> exists i :: OccursAt(hay, needle, i)
    decreases |hay|
  {
    if needle <= hay {
      assert OccursAt(hay, needle, 0);
    } else if hay == [] {
    } else {
      IncludesIff(hay[1..], needle);
      if exists i :: OccursAt(hay[1..], needle, i) {
        var i :| OccursAt(hay[1..], needle, i);
        OccursShift(hay, needle, i);
      }
      if exists i :: OccursAt(hay, needle, i) {
        var i :| OccursAt(hay, needle, i);
        if i != 0 {
          OccursShift(hay, needle, i - 1);
        }
      }
    }
  }

  lemma OccursShift(hay: string, needle: string, i: nat)
    requires hay != []
    ensures OccursAt(hay, needle, i + 1) <==> OccursAt(hay[1..], needle, i)
  {
    if i + 1 + |needle| <= |hay| {
      assert hay[i + 1..i + 1 + |needle|] == hay[1..][i..i + |needle|];
    }
  }

  /* ---------- decimal numbers ---------- */

  predicate IsDigit(c: char) {
    '0' <= c <= '9'
  }

  /** A non-empty string of decimal digits: the values the sort compares as numbers. */
  predicate IsNumeric(s: string) {
    |s| > 0 && forall i :: 0 <= i < |s| ==> IsDigit(s[i])
  }

  function DigitValue(c: char): nat
    requires IsDigit(c)
  {
    c as int - '0' as int
  }

  /** The number a digit string denotes; `requires` keeps it to digit strings. */
  function ParseNat(s: string): nat
    requires forall i :: 0 <= i < |s| ==> IsDigit(s[i])
  {
    if s == [] then 0 else 10 * ParseNat(s[..|s| - 1]) + DigitValue(s[|s| - 1])
  }

  /** Writes a natural number in decimal, most significant digit first and
      without leading zeros, as `Number.prototype.toString` does. */
  function ShowNat(n: nat): (s: string)
    ensures IsNumeric(s)
    ensures ParseNat(s) == n
    ensures |s| == 1 || s[0] != '0'
  {
    if n < 10 then ["0123456789"[n]]
    else
      var init := ShowNat(n / 10);
      var s := init + ["0123456789"[n % 10]];
      assert s[..|s| - 1] == init;
      ParseSingle(init);
      s
  }

  lemma ParseSingle(s: string)
    requires forall i :: 0 <= i < |s| ==> IsDigit(s[i])
    ensures |s| == 1 ==> ParseNat(s) == DigitValue(s[0])
  {
    if |s| == 1 {
      assert s[..0] == [];
    }
  }

  function Pow10(k: nat): (p: nat)
    ensures p >= 1
  {
    if k == 0 then 1 else 10 * Pow10(k - 1)
  }

  /** The last `k` digits of a digit string denote its value modulo `10^k`:
      the value is the number of the leading digits, shifted, plus that of the
      trailing ones, which is below `10^k`. */
  lemma {:induction false} ParseSplit(s: string, k: nat)
    requires forall i :: 0 <= i < |s| ==> IsDigit(s[i])
    requires k <= |s|
    ensures ParseNat(s) == ParseNat(s[..|s| - k]) * Pow10(k) + ParseNat(s[|s| - k..])
    ensures ParseNat(s[|s| - k..]) < Pow10(k)
  {
    if k == 0 {
      assert s[..|s|] == s;
      assert s[|s|..] == [];
    } else {
      var t := s[..|s| - 1];
      var d := DigitValue(s[|s| - 1]);
      ParseSplit(t, k - 1);
      var a, b := ParseNat(t[..|t| - (k - 1)]), ParseNat(t[|t| - (k - 1)..]);
      var tail := s[|s| - k..];
      assert t[..|t| - (k - 1)] == s[..|s| - k];
      assert tail[..|tail| - 1] == t[|t| - (k - 1)..];
      assert ParseNat(tail) == 10 * b + d;
      assert ParseNat(s) == 10 * (a * Pow10(k - 1) + b) + d;
      ShiftByTen(a, Pow10(k - 1));
    }
  }

  /** A number below `10^k` has at most `k` digits, so one of at least 1000
      has at least four. */
  lemma ShowNatLength(n: nat)
    ensures n >= 1000 ==> |ShowNat(n)| >= 4
  {
    var s := ShowNat(n);
    ParseSplit(s, |s|);
    assert s[..0] == [] && s[0..] == s;
    if |s| < 4 {
      assert Pow10(|s|) <= 1000 by {
        assert Pow10(0) == 1 && Pow10(1) == 10 && Pow10(2) == 100 && Pow10(3) == 1000;
      }
    }
  }

  /** A number below `10^k` has at most `k` digits. */
  lemma {:induction false} ShowNatShort(n: nat, k: nat)
    requires k >= 1 && n < Pow10(k)
    ensures |ShowNat(n)| <= k
  {
    if n >= 10 {
      ShowNatShort(n / 10, k - 1);
    }
  }

  /** `toString().slice(-4)` denotes the number modulo 10000. */
  lemma LastFourDigits(n: nat)
    requires |ShowNat(n)| >= 4
    ensures ParseNat(ShowNat(n)[|ShowNat(n)| - 4..]) == n % 10000
  {
    var s := ShowNat(n);
    ParseSplit(s, 4);
    assert Pow10(4) == 10000 by {
      assert Pow10(1) == 10 && Pow10(2) == 100 && Pow10(3) == 1000;
    }
    var q, r := ParseNat(s[..|s| - 4]), ParseNat(s[|s| - 4..]);
    DivModUnique(n, q, r, 10000);
  }

  /* ---------- string order ---------- */

  /** JavaScript's `a < b` on strings: lexicographic on character codes. */
  predicate LexLess(a: string, b: string) {
    if a == [] then b != []
    else if b == [] then false
    else if a[0] != b[0] then a[0] < b[0]
    else LexLess(a[1..], b[1..])
  }

  lemma {:induction false} LexLessIrreflexive(a: string)
    ensures !LexLess(a, a)
  {
    if a != [] {
      LexLessIrreflexive(a[1..]);
    }
  }

  lemma {:induction false} LexLessTrichotomy(a: string, b: string)
    ensures a == b || LexLess(a, b) || LexLess(b, a)
    ensures !(LexLess(a, b) && LexLess(b, a))
  {
    if a != [] && b != [] && a[0] == b[0] {
      LexLessTrichotomy(a[1..], b[1..]);
      if a[1..] == b[1..] {
        assert a == [a[0]] + a[1..] && b == [b[0]] + b[1..];
      }
    }
  }

  lemma {:induction false} LexLessTransitive(a: string, b: string, c: string)
    requires LexLess(a, b) && LexLess(b, c)
    ensures LexLess(a, c)
  {
    if a != [] && a[0] == b[0] && b[0] == c[0] {
      LexLessTransitive(a[1..], b[1..], c[1..]);
    }
  }

  /* ---------- trim ---------- */

  /** The characters `String.prototype.trim` removes: ECMAScript's WhiteSpace
      and LineTerminator productions. */
  predicate IsSpace(c: char) {
    || c == '\t' || c == '\n' || c == '\U{000B}' || c == '\U{000C}' || c == '\r' || c == ' '
    || c == '\U{00A0}' || c == '\U{1680}' || ('\U{2000}' <= c <= '\U{200A}')
    || c == '\U{2028}' || c == '\U{2029}' || c == '\U{202F}' || c == '\U{205F}'
    || c == '\U{3000}' || c == '\U{FEFF}'
  }

  function TrimStart(s: string): (r: string)
    ensures |r| <= |s| && r == s[|s| - |r|..]
    ensures forall i :: 0 <= i < |s| - |r| ==> IsSpace(s[i])
    ensures r == [] || !IsSpace(r[0])
  {
    if s != [] && IsSpace(s[0]) then TrimStart(s[1..]) else s
  }

  function TrimEnd(s: string): (r: string)
    ensures |r| <= |s| && r == s[..|r|]
    ensures forall i :: |r| <= i < |s| ==> IsSpace(s[i])
    ensures r == [] || !IsSpace(r[|r| - 1])
  {
    if s != [] && IsSpace(s[|s| - 1]) then TrimEnd(s[..|s| - 1]) else s
  }

  /** `r` is the slice of `s` starting at `i`, and everything of `s` outside it
      is white space. */
  predicate SliceWithin(s: string, r: string, i: int) {
    && 0 <= i <= |s| - |r|
    && r == s[i..i + |r|]
    && (forall k :: 0 <= k < i ==> IsSpace(s[k]))
    && (forall k :: i + |r| <= k < |s| ==> IsSpace(s[k]))
  }

  /** No white space at either end, as `trim` leaves a string. */
  predicate Trimmed(s: string) {
    s == [] || (!IsSpace(s[0]) && !IsSpace(s[|s| - 1]))
  }

  /** `String.prototype.trim`: the longest slice of `s` that neither starts nor
      ends with white space, everything cut off on either side being white space. */
  function Trim(s: string): (r: string)
    ensures exists i :: SliceWithin(s, r, i)
    ensures Trimmed(r)
  {
    TrimSlice(s);
    TrimEnd(TrimStart(s))
  }

  lemma TrimSlice(s: string)
    ensures SliceWithin(s, TrimEnd(TrimStart(s)), |s| - |TrimStart(s)|)
  {
    SliceOfParts(s, TrimStart(s), TrimEnd(TrimStart(s)));
  }

  /** Cutting white space off the front of `s` and then off the back of what
      is left leaves a slice of `s` with only white space around it. */
  lemma SliceOfParts(s: string, t: string, r: string)
    requires |t| <= |s| && t == s[|s| - |t|..]
    requires forall k :: 0 <= k < |s| - |t| ==> IsSpace(s[k])
    requires |r| <= |t| && r == t[..|r|]
    requires forall k :: |r| <= k < |t| ==> IsSpace(t[k])
    ensures SliceWithin(s, r, |s| - |t|)
  {
    var i := |s| - |t|;
    assert r == s[i..i + |r|];
    forall k | i + |r| <= k < |s|
      ensures IsSpace(s[k])
    {
      assert s[k] == t[k - i];
    }
  }

  /** Trimming a trimmed string changes nothing. */
  lemma TrimIdempotent(s: string)
    ensures Trim(Trim(s)) == Trim(s)
  {
    var r := Trim(s);
    assert TrimStart(r) == r;
    assert TrimEnd(r) == r;
  }

  /** The sign-in form's "is this field empty after trimming" test. */
  lemma TrimEmptyIff(s: string)
    ensures Trim(s) == [] <==> forall k :: 0 <= k < |s| ==> IsSpace(s[k])
  {
    var r := Trim(s);
    var i :| SliceWithin(s, r, i);
    if r != [] {
      assert r[0] == s[i];
    }
  }
}

=== FILE: view.dfy ===
/** The state the inventory view keeps between renders (`UI.pg`, `UI.limit`,
    `UI.sort`), the handlers that change it, and the data side of
    `UI.renderInventory`: filter, optional sort, page. */
module View {
  import opened Optional
  import opened Records
  import Query
  import Paging
  import Arith

  /** `UI.sort`: the column sorted on (`null` as `None`) and the direction. */
  datatype SortState = SortState(col: Option<string>, asc: bool)

  datatype ViewState = ViewState(pg: int, limit: int, sort: SortState)

  /** The state on load: page 1, ten rows a page, no sort column, ascending. */
  const Initial := ViewState(1, 10, SortState(None, true))

  /** `UI.sortData(col)`: the column already sorted on flips direction, any
      other column becomes the sort column, ascending. */
  function SortData(v: ViewState, col: string): (r: ViewState)
    ensures r.pg == v.pg && r.limit == v.limit
    ensures r.sort.col == Some(col)
    ensures v.sort.col == Some(col) ==> r.sort.asc == !v.sort.asc
    ensures v.sort.col != Some(col) ==> r.sort.asc
  {
    if v.sort.col == Some(col) then v.(sort := v.sort.(asc := !v.sort.asc))
    else v.(sort := SortState(Some(col), true))
  }

  /** Selecting the current sort column twice leaves the state as it was. */
  lemma SortDataTwice(v: ViewState, col: string)
    requires v.sort.col == Some(col)
    ensures SortData(SortData(v, col), col) == v
  {
  }

  /** `UI.changePage(dir)`: moves the page counter, unguarded. */
  function ChangePage(v: ViewState, dir: int): (r: ViewState)
    ensures r.pg - v.pg == dir
    ensures r.limit == v.limit && r.sort == v.sort
  {
    v.(pg := v.pg + dir)
  }

  lemma ChangePageUndo(v: ViewState, dir: int)
    ensures ChangePage(ChangePage(v, dir), -dir) == v
  {
  }

  /** `UI.resetPagination()`: back to page 1, sort untouched. */
  function ResetPagination(v: ViewState): (r: ViewState)
    ensures r.pg == 1
    ensures r.limit == v.limit && r.sort == v.sort
  {
    v.(pg := 1)
  }

  /** `if (UI.sort.col)`: `null` and the empty string leave the order alone. */
  predicate SortActive(s: SortState): (b: bool)
    ensures b <==> s.col != None && s.col != Some("")
  {
    s.col.Some? && s.col.value != ""
  }

  function ApplySort(data: seq<Record>, s: SortState): (r: seq<Record>)
    ensures multiset(r) == multiset(data)
    ensures !SortActive(s) ==> r == data
  {
    if SortActive(s) then Query.SortRecords(data, s.col.value, s.asc) else data
  }

  /** The data `UI.renderInventory` puts on screen for the search box, the
      status drop-down and the view state. */
  function RenderInventory(inv: seq<Record>, search: string, filter: string, v: ViewState): (p: Paging.Page<Record>)
    ensures p.total == |Query.Filter(inv, search, filter)|
    ensures forall x :: x in p.items ==> x in inv && Query.Keep(x, search, filter)
    ensures v.pg >= 1 && v.limit > 0 ==> |p.items| <= v.limit
  {
    var filtered := Query.Filter(inv, search, filter);
    var sorted := ApplySort(filtered, v.sort);
    assert forall x :: x in sorted ==> x in multiset(filtered);
    Paging.PageWindowFacts(sorted, v.pg, v.limit);
    Paging.Paginate(sorted, v.pg, v.limit)
  }

  /** The total shown does not depend on the page number or the sort. */
  lemma TotalIndependentOfPage(inv: seq<Record>, search: string, filter: string, v: ViewState, w: ViewState)
    ensures RenderInventory(inv, search, filter, v).total == RenderInventory(inv, search, filter, w).total
  {
  }

  /** With no sort column the page shows the filtered rows in stored order. */
  lemma UnsortedKeepsOrder(inv: seq<Record>, search: string, filter: string, v: ViewState)
    requires !SortActive(v.sort)
    requires v.pg >= 1 && v.limit > 0
    ensures RenderInventory(inv, search, filter, v).items
              == Paging.Window(Query.Filter(inv, search, filter), v.pg, v.limit)
  {
    var f := Query.Filter(inv, search, filter);
    assert ApplySort(f, v.sort) == f;
    assert RenderInventory(inv, search, filter, v) == Paging.Paginate(f, v.pg, v.limit);
    Paging.PageWindow(f, v.pg, v.limit);
  }

  /** On load the table shows the first ten matching rows in stored order. */
  lemma InitialShowsFirstRows(inv: seq<Record>, search: string, filter: string)
    ensures var f := Query.Filter(inv, search, filter);
            RenderInventory(inv, search, filter, Initial).items == f[..Arith.Min(10, |f|)]
  {
    var f := Query.Filter(inv, search, filter);
    UnsortedKeepsOrder(inv, search, filter, Initial);
    assert Paging.Start(1, 10) == 0;
  }

  /** The page shown is the window of the filtered and sorted rows, "previous"
      is disabled exactly on page 1, and "next" exactly when the following
      page would be empty. */
  lemma RenderShowsWindow(inv: seq<Record>, search: string, filter: string, v: ViewState)
    requires v.pg >= 1 && v.limit > 0
    ensures var sorted := ApplySort(Query.Filter(inv, search, filter), v.sort);
            var p := RenderInventory(inv, search, filter, v);
            && p.items == Paging.Window(sorted, v.pg, v.limit)
            && (p.prevDisabled <==> v.pg == 1)
            && (p.nextDisabled <==> Paging.Paginate(sorted, v.pg + 1, v.limit).items == [])
  {
    var sorted := ApplySort(Query.Filter(inv, search, filter), v.sort);
    Paging.PageWindow(sorted, v.pg, v.limit);
    Paging.PageFlags(sorted, v.pg, v.limit);
  }

  /** The "Showing a - b of total" label: on a non-empty page it numbers the
      rows shown, 1-based; past the end both numbers are the total. */
  lemma RenderShowsLabel(inv: seq<Record>, search: string, filter: string, v: ViewState)
    requires v.pg >= 1 && v.limit > 0
    ensures var total := |Query.Filter(inv, search, filter)|;
            var p := RenderInventory(inv, search, filter, v);
            var start := Paging.Start(v.pg, v.limit);
            && (start < total ==> p.first == start + 1 && p.last == start + |p.items| && |p.items| > 0)
            && (start >= total ==> p.first == total && p.last == total && p.items == [])
  {
    var sorted := ApplySort(Query.Filter(inv, search, filter), v.sort);
    assert |sorted| == |Query.Filter(inv, search, filter)| by {
      assert |multiset(sorted)| == |multiset(Query.Filter(inv, search, filter))|;
    }
    Paging.PageLabel(sorted, v.pg, v.limit);
  }
}
